=== FILE: README.md ===
# pyne nuclear-data cache, modelled in Dafny

pyne's `cpp/data.cpp` answers queries for nuclear data through one lazy,
load-once cache pattern. The data covers:
- atomic masses and natural abundances;
- neutron scattering lengths;
- half-lives, decay constants, branch ratios and decay children;
- nuclear levels and metastable states;
- fission product yields;
- decay records.

Each quantity lives in a process-wide `std::map`, and each query does the same three things:
1. A hit returns the stored value and leaves the map unchanged.
2. A miss in an EMPTY map runs a bulk loader from the `nuc_data.h5` store once, then retries by recursion.
3. A miss in a non-empty map applies a fallback rule. Most quantities memoize the fallback value.

The model keeps this shape in pure Dafny:
- The cache is a record of immutable maps. Every query is a function from `(state, dataset, key)` to a `Reply(value, state')`.
- A query whose load failure reaches the caller returns `Result<Reply<...>>`.
- The reference store is a `Dataset<R>`: either the table's records in file order, or a `LoadError` (`FileNotFound`, `FileNotHDF5`).
- Each loader is a fold of its records into the current maps. Loads never clear a map.
- Iteration over a `std::map` in ascending key order is "the least key that satisfies the predicate".
- C++ integer division and remainder truncate toward zero. They are written out as `NucId.CDiv` and `NucId.CMod`.

Modules, one per component:
- `Basics`: the dataset, error and reply types.
- `CacheTable`: ordered first match and the last-writer-wins fold.
- `NucId`: ZZZAAASSSS id arithmetic.
- `AtomicMass`
- `Scattering`
- `Decay`: the `/decay/half_life` tables.
- `Levels`: `level_data`.
- `FissionYield`
- `DecayData`: `decay_data` and `data_access`.

The source's own behaviour is kept where it is surprising. Each item below is stated in a contract or a lemma:
- `natural_abund` stores the excited-state answer in the MASS table, not the abundance table.
- `state_energy` discards the answer of its post-load retry and returns 0.0.
- `metastable_id` scans the block that starts at `(nuc / 1000) * 1000`, and compares the record's real `metastable` field with `m`.
- The range form of `data_access` reads every element from the first visited record.
- `decay_branch_ratios` reads the half-life field.
- The range accessor's daughter bound `9999999999` becomes 1410065407 when converted to a 32-bit `int`.
- An `fpyield` miss on sources 1-3 (or any other non-zero source) memoizes 0.0 in the WIMSD table. If that table was empty, this stops it from ever being loaded.
- An NDS miss overwrites an existing WIMSD yield for the same pair with 0.0, so a later source-0 query for that pair answers 0.0.
- A source-0 miss on a non-empty WIMSD table loads the NDS table when it is empty, and a failure of that load reaches the caller.

## Model

| member | source | states |
|---|---|---|
| CacheTable.FirstKey | cpp/data.cpp:308-318 | the first key in ascending order that satisfies the predicate: it is a key, it satisfies the predicate, no smaller key does; None exactly when no key does |
| CacheTable.LastWriter | cpp/data.cpp:78-81 | a load's key set is the old keys plus the keys of all rows |
| CacheTable.LastWriterWins | cpp/data.cpp:78-81 | after a load, a key holds the value of the last row that names it |
| CacheTable.LastWriterKeeps | cpp/data.cpp:78-81 | an entry no row names survives a load unchanged (maps are never cleared) |
| NucId.CDiv | cpp/data.cpp:117-127 | C++ integer division: the quotient truncated toward zero, bracketing the dividend between consecutive multiples |
| NucId.CMod | cpp/data.cpp:117-127 | C++ remainder: sign of the dividend, magnitude below the divisor |
| NucId.GroundState | cpp/data.cpp:119 | `(nucid/10000)*10000` clears the state field, is not excited, and for a non-negative id lies below it by exactly the state field |
| NucId.MassNumber | cpp/data.cpp:127 | `(nucid/10000)%1000` lies in [0, 1000) for a non-negative id |
| NucId.ExcitedAndGroundShareMassNumber | cpp/data.cpp:117-127 | an excited id and its ground state have the same mass number |
| AtomicMass.LoadAtomicMassMap | cpp/data.cpp:78-81 | one pass fills both tables with the rows' ids, making both non-empty when there are rows |
| AtomicMass.LoadedRowWins | cpp/data.cpp:78-81 | the last row for an id supplies both its mass and its abundance |
| AtomicMass.AtomicMass | cpp/data.cpp:87-130 | the answer is memoized under the queried id; earlier entries are kept; a hit changes nothing; a ground-state miss answers and memoizes the mass number; an excited miss answers the ground state's table entry, or its mass number when that is missing too, and the resulting state is exactly the old one plus the ground and excited mass entries; the abundance table changes only through a load |
| AtomicMass.NaturalAbund | cpp/data.cpp:153-196 | a hit changes nothing; a ground-state miss answers and memoizes 0.0; an excited miss answers the ground state's abundance entry, or 0.0 when that is missing too, and the resulting state is exactly the mass table plus that entry (in the MASS table, not the abundance table) and the abundance table plus at most the ground state's 0.0; with an unreadable store and an empty table every id answers 0.0 |
| AtomicMass.AtomicMassIdempotent | cpp/data.cpp:112-129 | a second mass query for the same id returns the same value and changes nothing |
| AtomicMass.NaturalAbundIdempotent | cpp/data.cpp:178-195 | a second abundance query returns the same value and changes nothing, although the excited answer is not memoized in the abundance table |
| AtomicMass.ExcitedMassIsGroundMass | cpp/data.cpp:117-121 | an excited miss answers exactly the ground state's mass |
| AtomicMass.ExcitedAbundIsGroundAbund | cpp/data.cpp:183-188 | an excited miss answers exactly the ground state's abundance query, so 0.0 when the ground state is missing too |
| AtomicMass.UnreadableStoreStillEstimatesMass | cpp/data.cpp:101-129 | a failed load is swallowed: with an unreadable store and an empty mass table every id, ground or excited, gets its mass number, never an error |
| AtomicMass.UnreadableStoreAbundanceIsZero | cpp/data.cpp:167-195 | a failed load is swallowed: with an unreadable store and an empty abundance table every id, ground or excited, gets 0.0 |
| AtomicMass.MissingGroundAbundanceIsZero | cpp/data.cpp:191-195 | a ground-state miss in a non-empty table is 0.0 whatever the dataset |
| AtomicMass.Uranium235Scenario | cpp/data.cpp:87-130 | a one-row U-235 dataset gives its mass and abundance, and U-235m gets the ground mass memoized under its own id |
| AtomicMass.ColdQueryReadsDataset | cpp/data.cpp:101-108 | on a cold cache the first query loads, and a listed id gets the mass and the abundance of its last row, with the loaded tables as the new cache |
| AtomicMass.ColdQueryOfUnlistedGround | cpp/data.cpp:101-129 | on a cold cache an unlisted ground-state id gets, over the loaded tables, its mass number as mass and 0.0 as abundance, each memoized in its own table |
| AtomicMass.ColdQueryOfUnlistedExcited | cpp/data.cpp:101-121 | on a cold cache an unlisted excited id gets the ground-state answer over the loaded tables, and its abundance is not written into the abundance table |
| Scattering.LoadScatteringLengths | cpp/data.cpp:266-270 | one pass fills both length tables with the rows' ids |
| Scattering.LoadedRowWins | cpp/data.cpp:266-270 | the last row for an id supplies both its lengths |
| Scattering.Estimate | cpp/data.cpp:302-338 | the least-id entry with the same mass number; failing that the least-id entry with the same atomic number; failing that zero |
| Scattering.Lookup | cpp/data.cpp:282-339 | a load failure reaches the caller and only an empty table loads; every answer is memoized; a hit changes nothing; a miss stores the estimate and nothing else |
| Scattering.BCoherent | cpp/data.cpp:282-339 | the lookup on the coherent table |
| Scattering.BIncoherent | cpp/data.cpp:362-419 | the lookup on the incoherent table |
| Scattering.ColdQueryReadsDataset | cpp/data.cpp:294-300 | on a cold cache a listed id gets the length from its last row |
| Scattering.ColdQueryOfUnlistedEstimates | cpp/data.cpp:296-338 | on a cold cache an unlisted id gets the nearest-match estimate over the freshly loaded table, memoized there and nowhere else |
| Scattering.MassNumberMatchBeatsAtomicNumberMatch | cpp/data.cpp:305-330 | a same-A entry wins over a same-Z entry with a smaller id, and is memoized |
| Decay.FirstOrGround | cpp/data.cpp:738-745 | a load's key set is the old keys plus the rows' keys |
| Decay.GroundRowWins | cpp/data.cpp:738-745 | the last ground-level (level 0.0) row for a key decides its entry |
| Decay.FirstRowWins | cpp/data.cpp:738-745 | with no ground-level row, the first row for a new key decides its entry |
| Decay.ExistingEntryKept | cpp/data.cpp:738-745 | with no ground-level row, an entry from before the load survives it |
| Decay.AddChildren | cpp/data.cpp:749-750 | a nuclide's children are its old children plus the targets of its rows with a non-zero decay constant |
| Decay.ChildrenRecorded | cpp/data.cpp:749-750 | a dataset with a non-zero decay constant makes the children table non-empty |
| Decay.LoadHalfLifeDecay | cpp/data.cpp:731-751 | the five tables get the rows' keys by their own rules; the decay-constant and branch-ratio tables become non-empty |
| Decay.DecayConst | cpp/data.cpp:761-786 | errors reach the caller; only an empty table loads; answers are memoized; a hit changes nothing; a miss memoizes 0.0 |
| Decay.BranchRatio | cpp/data.cpp:809-834 | the same contract over (from, to) pairs |
| Decay.DecayChildren | cpp/data.cpp:859-885 | the same contract with the empty set as default |
| Decay.ColdDecayConstFromGroundRow | cpp/data.cpp:741-742 | on a cold cache the decay constant comes from the last ground-level row |
| Decay.ColdDecayConstFromFirstRow | cpp/data.cpp:741-742 | without a ground-level row it comes from the first row |
| Decay.ColdDecayConstOfUnlisted | cpp/data.cpp:781-785 | an unlisted nuclide is stable (0.0), memoized |
| Decay.ColdBranchRatioFromGroundRow | cpp/data.cpp:744-745 | the branch ratio of a pair comes from its last ground-level row |
| Decay.ColdBranchRatioFromFirstRow | cpp/data.cpp:744-745 | the branch ratio of a pair without a ground-level row comes from its first row |
| Decay.ColdBranchRatioOfUnlisted | cpp/data.cpp:824-833 | on a cold cache a pair no row mentions gets 0.0, memoized in the loaded table |
| Decay.ColdDecayChildren | cpp/data.cpp:874-877 | on a cold cache the children are exactly the targets of rows with a non-zero decay constant |
| Decay.StateEnergyIsLastWriter | cpp/data.cpp:747 | the state energy keeps the last row's level, ignoring ground precedence |
| Levels.LoadLevelData | cpp/data.cpp:942-944 | each record is stored under its own id |
| Levels.LoadKeepsKeyedById | cpp/data.cpp:942-944 | loading keeps every entry stored under its record's id |
| Levels.ScanBlock | cpp/data.cpp:957-964 | the id of the least-key entry in the block whose metastable field equals m, else 0 |
| Levels.MetastableId | cpp/data.cpp:948-965 | m = 0 answers 0 without loading; otherwise a failed load reaches the caller and the block scan decides |
| Levels.FirstMetastableId | cpp/data.cpp:967-969 | the one-argument form is the scan for m = 1 |
| Levels.MetastableIdIsLeastInBlock | cpp/data.cpp:957-962 | a non-zero answer is an entry of the block with metastable field m, and no smaller entry of the block has that field |
| Levels.StateEnergy | cpp/data.cpp:975-998 | a hit answers the level; anything else answers 0.0, including the first query after a load; nothing is memoized |
| Levels.HalfLife | cpp/data.cpp:1016-1037 | a hit answers the half-life; an empty table loads and retries; otherwise 0.0, not memoized |
| Levels.ColdStateEnergyIsZeroUntilAskedAgain | cpp/data.cpp:992-997 | on a cold cache the state energy of a listed nuclide is 0.0 and only a second query returns its level, while the half-life is right at once |
| Levels.Uranium235Isomer | cpp/data.cpp:948-969 | U-235 with its first isomer: m = 1 finds the isomer, m = 2 finds nothing, m = 0 is 0 |
| FissionYield.LoadWimsFpy | cpp/data.cpp:521-524 | the WIMSD load adds the rows' pairs |
| FissionYield.LoadNdsFpy | cpp/data.cpp:584-593 | the NDS load adds the rows' pairs |
| FissionYield.Select | cpp/data.cpp:616-632 | sources 1, 2, 3 select the thermal, fast, 14 MeV yield or its error; other sources select nothing |
| FissionYield.FpYield | cpp/data.cpp:600-653 | which load fails and with what error; NDS loaded exactly when reached empty; the WIMSD table gets a 0.0 for the pair exactly when the query misses after its loads and is otherwise only loaded; source 0 answers the WIMSD value or memoizes 0.0 there; sources 1-3 the selected NDS value, else 0.0 memoized in the WIMSD table; a hit changes nothing |
| FissionYield.WimsIgnoresErrorFlag | cpp/data.cpp:605-611 | source 0 ignores the error flag |
| FissionYield.FpYieldIdempotent | cpp/data.cpp:600-653 | a repeated query returns the same answer and leaves the cache as it was |
| FissionYield.ColdNdsQueryReadsDataset | cpp/data.cpp:643-646 | on a cold cache an NDS query answers from the last row for the pair and loads only the NDS table |
| FissionYield.ColdWimsQueryReadsDataset | cpp/data.cpp:640-642 | on a cold cache a WIMSD query answers from the last row for the pair and leaves the NDS table unloaded |
| FissionYield.NdsMissStopsWimsLoad | cpp/data.cpp:648-652 | an NDS miss with an empty WIMSD table writes 0.0 there, after which WIMSD queries never load and answer 0.0 |
| DecayData.LoadDecayData | cpp/data.cpp:1100-1102 | each record is stored under its (parent, daughter) pair |
| DecayData.DataAccess | cpp/data.cpp:1108-1128 | errors reach the caller; only an empty table loads; the record's field, else 0 with nothing inserted |
| DecayData.Int32Wrap | cpp/data.cpp:1134 | conversion to 32-bit int: in range and congruent modulo 2^32 |
| DecayData.Int32WrapKeepsInt32 | cpp/data.cpp:1134 | a value already in range is unchanged |
| DecayData.DaughterUpperBoundValue | cpp/data.cpp:1134 | the converted bound is 1410065407 |
| DecayData.LeastDaughter | cpp/data.cpp:1133 | the first visited record is the one with the least daughter in range |
| DecayData.RangeScan | cpp/data.cpp:1136-1139 | one element per visited record, each the field of the first visited record |
| DecayData.DataAccessRange | cpp/data.cpp:1130-1149 | errors reach the caller; only an empty table loads; the range scan of the resulting table |
| DecayData.ValueAndError | cpp/data.cpp:1152-1155 | two fields of the same record, or (0, 0) |
| DecayData.Zip | cpp/data.cpp:1161-1163 | element-wise pairing of equal-length sequences |
| DecayData.ValuesAndErrors | cpp/data.cpp:1157-1165 | one pair per visited record, each the two fields of the first visited record |
| DecayData.DecayHalfLife | cpp/data.cpp:1152-1155 | the record's half-life and its error, or (0, 0) |
| DecayData.DecayHalfLifes | cpp/data.cpp:1157-1165 | the first visited record's half-life and error, once per visited record |
| DecayData.DecayBranchRatio | cpp/data.cpp:1167-1169 | the record's branch ratio, or 0 |
| DecayData.DecayBranchRatios | cpp/data.cpp:1171-1173 | the first visited record's HALF-LIFE, once per visited record |
| DecayData.DecayPhotonBranchRatio | cpp/data.cpp:1175-1178 | the record's photon branch ratio and error |
| DecayData.DecayPhotonBranchRatios | cpp/data.cpp:1180-1188 | the first visited record's photon branch ratio and error, once per visited record |
| DecayData.DecayBetaBranchRatio | cpp/data.cpp:1190-1193 | the record's beta branch ratio and error |
| DecayData.DecayBetaBranchRatios | cpp/data.cpp:1195-1203 | the first visited record's beta branch ratio and error, once per visited record |
| DecayData.ColdDataAccess | cpp/data.cpp:1119-1127 | on a cold cache a listed pair gives its last record's field and an unlisted pair 0 |
| DecayData.DataAccessIdempotent | cpp/data.cpp:1108-1128 | a repeated pair access returns the same answer with the same cache |
| DecayData.RangeAccessorsRepeatFirstRecord | cpp/data.cpp:1136-1173 | two records of one parent: the range accessors repeat the first record's values, and `decay_branch_ratios` reports half-lives while `decay_branch_ratio` reports the branch ratio |

## Left out

- Reading `nuc_data.h5`: the file checks, compound types, `H5Dread` and the other HDF5 calls in each loader. A load is a `Dataset`: the table's records, or the error the loader would throw.
- The `char *` and `std::string` overloads, and `nucname::id`. Ids are taken as already canonical, so `id` is the identity. The nuclide-name functions `znum` and `anum` are parameters (`NameService`); they are not part of this model.
- `b()`, which is a floating-point square root. The physical constants and the checksum table are constant data.
- Floating point in general: all values are Dafny `real`. Equality of the `metastable` field with `m` is exact real equality.
- The emission catalogs keyed by `(int, double)`, their loaders and their `data_access` forms. Their bounds convert `DBL_MAX` to `int`, which has no defined value.
- pyne/dbgen/decay.py, which builds the data file, and cpp/rxname.h, which holds name tables and exception messages.
- Concurrency: the cache is single-threaded global state.
- Decay: `half_life_map` is filled by the loader but no modelled query reads it (`half_life` reads `level_data`).
- `DecayData.DecayRecord`: the `decay` string field is carried but no accessor projects it.
- `Levels.BlockStart`: does not model 32-bit overflow of `nostate + 9999`, because canonical ids are far below 2^31 - 9999.
- `AtomicMass.AtomicMass`: requires that the table is non-empty or that the dataset refills it (`Refills`), because otherwise the source's retry recursion does not terminate. The same precondition is on `NaturalAbund`, `Scattering.Lookup`, `Decay.DecayConst`, `Decay.BranchRatio`, `Levels.StateEnergy`, `Levels.HalfLife`, `DecayData.DataAccess` and `DecayData.DataAccessRange`.
- `Decay.DecayChildren`: requires a dataset row with a non-zero decay constant when the table is empty, because otherwise the source recurses forever.
- `FissionYield.FpYield`: requires refilling datasets only for tables the query actually reaches empty, for the same reason.

=== FILE: atomic_mass.dfy ===
/**
  Atomic mass and natural abundance: two id-keyed tables filled in one pass
  from the `/atomic_mass` table. A miss in a non-empty table is answered by
  an estimate that is then memoized; a load failure is swallowed and the
  estimate is used instead.
 */
module AtomicMass {
  import opened Basics
  import opened CacheTable
  import opened NucId

  /** One row of the `/atomic_mass` table. */
  datatype MassRow = MassRow(nuc: int, mass: real, error: real, abund: real)

  /** `atomic_mass_map` and `natural_abund_map`. */
  datatype MassState = MassState(atomicMass: map<int, real>, naturalAbund: map<int, real>)

  const Empty := MassState(map[], map[])

  function RowNuc(r: MassRow): int { r.nuc }
  function RowMass(r: MassRow): real { r.mass }
  function RowAbund(r: MassRow): real { r.abund }

  /** `_load_atomic_mass_map`: every row writes its mass into the mass table
      and its abundance into the abundance table, later rows winning. */
  function LoadAtomicMassMap(st: MassState, rows: seq<MassRow>): (r: MassState)
    ensures r.atomicMass.Keys == st.atomicMass.Keys + KeysOf(rows, RowNuc)
    ensures r.naturalAbund.Keys == st.naturalAbund.Keys + KeysOf(rows, RowNuc)
    ensures |rows| > 0 ==> r.atomicMass != map[] && r.naturalAbund != map[]
  {
    LastWriterNonEmpty(st.atomicMass, rows, RowNuc, RowMass);
    LastWriterNonEmpty(st.naturalAbund, rows, RowNuc, RowAbund);
    MassState(LastWriter(st.atomicMass, rows, RowNuc, RowMass),
              LastWriter(st.naturalAbund, rows, RowNuc, RowAbund))
  }

  /** After the load, the last row naming a nuclide supplies both its mass and its abundance. */
  lemma LoadedRowWins(st: MassState, rows: seq<MassRow>, i: int)
    requires 0 <= i < |rows|
    requires forall j :: i < j < |rows| ==> rows[j].nuc != rows[i].nuc
    ensures rows[i].nuc in LoadAtomicMassMap(st, rows).atomicMass
    ensures LoadAtomicMassMap(st, rows).atomicMass[rows[i].nuc] == rows[i].mass
    ensures rows[i].nuc in LoadAtomicMassMap(st, rows).naturalAbund
    ensures LoadAtomicMassMap(st, rows).naturalAbund[rows[i].nuc] == rows[i].abund
  {
    LastWriterWins(st.atomicMass, rows, RowNuc, RowMass, i);
    LastWriterWins(st.naturalAbund, rows, RowNuc, RowAbund, i);
  }

  /** `atomic_mass(int)`: the cached mass; on a miss in an empty table, load
      and retry (a failed load is ignored); otherwise the ground-state mass
      for an excited id, else the mass number as a real, memoized under the
      queried id. */
  function AtomicMass(st: MassState, ds: Dataset<MassRow>, nuc: int): (r: Reply<real, MassState>)
    requires st.atomicMass != map[] || Refills(ds)
    ensures nuc in r.state.atomicMass && r.state.atomicMass[nuc] == r.value
    ensures forall k :: k in st.atomicMass ==> k in r.state.atomicMass && r.state.atomicMass[k] == st.atomicMass[k]
    ensures nuc in st.atomicMass ==> r == Reply(st.atomicMass[nuc], st)
    ensures nuc !in st.atomicMass && st.atomicMass != map[] && !IsExcited(nuc) ==>
              r == Reply(MassNumber(nuc) as real, st.(atomicMass := st.atomicMass[nuc := MassNumber(nuc) as real]))
    ensures nuc !in st.atomicMass && st.atomicMass != map[] && IsExcited(nuc) ==>
              GroundState(nuc) in r.state.atomicMass && r.state.atomicMass[GroundState(nuc)] == r.value
    ensures nuc !in st.atomicMass && st.atomicMass != map[] && IsExcited(nuc) ==>
              r.value == (if GroundState(nuc) in st.atomicMass then st.atomicMass[GroundState(nuc)]
                          else MassNumber(GroundState(nuc)) as real)
    ensures nuc !in st.atomicMass && st.atomicMass != map[] && IsExcited(nuc) ==>
              r.state == st.(atomicMass := st.atomicMass[GroundState(nuc) := r.value][nuc := r.value])
    // the abundance table changes only through a load
    ensures r.state.naturalAbund ==
              (if nuc !in st.atomicMass && st.atomicMass == map[] && ds.Rows?
               then LoadAtomicMassMap(st, ds.rows).naturalAbund else st.naturalAbund)
    decreases (if IsExcited(nuc) then 1 else 0), (if st.atomicMass == map[] then 1 else 0)
  {
    if nuc in st.atomicMass then Reply(st.atomicMass[nuc], st)
    else if st.atomicMass == map[] && ds.Rows? then
      AtomicMass(LoadAtomicMassMap(st, ds.rows), ds, nuc)
    else if IsExcited(nuc) then
      var ground := AtomicMass(st, ds, GroundState(nuc));
      Reply(ground.value, ground.state.(atomicMass := ground.state.atomicMass[nuc := ground.value]))
    else
      var guess := MassNumber(nuc) as real;
      Reply(guess, st.(atomicMass := st.atomicMass[nuc := guess]))
  }

  /** `natural_abund(int)`: the cached abundance; on a miss in an empty table,
      load and retry (a failed load is ignored); otherwise the ground-state
      abundance for an excited id -- stored into the MASS table under the
      queried id, as pyne's `natural_abund` does -- else 0.0, memoized in the abundance
      table. */
  function NaturalAbund(st: MassState, ds: Dataset<MassRow>, nuc: int): (r: Reply<real, MassState>)
    requires st.naturalAbund != map[] || Refills(ds)
    ensures (nuc in r.state.naturalAbund && r.state.naturalAbund[nuc] == r.value)
         || (IsExcited(nuc) && GroundState(nuc) in r.state.naturalAbund
             && r.state.naturalAbund[GroundState(nuc)] == r.value)
    ensures forall k :: k in st.naturalAbund ==> k in r.state.naturalAbund && r.state.naturalAbund[k] == st.naturalAbund[k]
    ensures nuc in st.naturalAbund ==> r == Reply(st.naturalAbund[nuc], st)
    ensures nuc !in st.naturalAbund && st.naturalAbund != map[] && !IsExcited(nuc) ==>
              r == Reply(0.0, st.(naturalAbund := st.naturalAbund[nuc := 0.0]))
    ensures nuc !in st.naturalAbund && st.naturalAbund != map[] && IsExcited(nuc) ==>
              && nuc !in r.state.naturalAbund
              && nuc in r.state.atomicMass && r.state.atomicMass[nuc] == r.value
    ensures nuc !in st.naturalAbund && st.naturalAbund != map[] && IsExcited(nuc) ==>
              r.value == (if GroundState(nuc) in st.naturalAbund then st.naturalAbund[GroundState(nuc)] else 0.0)
    ensures nuc !in st.naturalAbund && st.naturalAbund != map[] && IsExcited(nuc) ==>
              r.state == MassState(st.atomicMass[nuc := r.value],
                                   if GroundState(nuc) in st.naturalAbund then st.naturalAbund
                                   else st.naturalAbund[GroundState(nuc) := 0.0])
    // a failed load is swallowed and every id falls through to the 0.0 estimate
    ensures st.naturalAbund == map[] && ds.Unreadable? ==> r.value == 0.0
    decreases (if IsExcited(nuc) then 1 else 0), (if st.naturalAbund == map[] then 1 else 0)
  {
    if nuc in st.naturalAbund then Reply(st.naturalAbund[nuc], st)
    else if st.naturalAbund == map[] && ds.Rows? then
      NaturalAbund(LoadAtomicMassMap(st, ds.rows), ds, nuc)
    else if IsExcited(nuc) then
      var ground := NaturalAbund(st, ds, GroundState(nuc));
      Reply(ground.value, ground.state.(atomicMass := ground.state.atomicMass[nuc := ground.value]))
    else
      Reply(0.0, st.(naturalAbund := st.naturalAbund[nuc := 0.0]))
  }

  /** Asking for the same mass twice gives the same answer, whether the first
      answer came from the table or from an estimate, and the second call
      changes nothing. */
  lemma AtomicMassIdempotent(st: MassState, ds: Dataset<MassRow>, nuc: int)
    requires st.atomicMass != map[] || Refills(ds)
    ensures var first := AtomicMass(st, ds, nuc);
            AtomicMass(first.state, ds, nuc) == first
  {
  }

  /** Asking for the same abundance twice gives the same answer and changes
      nothing, although the excited-state estimate is never memoized in the
      abundance table: the second call finds the ground entry and rewrites
      the same mass-table entry. */
  lemma {:induction false} NaturalAbundIdempotent(st: MassState, ds: Dataset<MassRow>, nuc: int)
    requires st.naturalAbund != map[] || Refills(ds)
    ensures var first := NaturalAbund(st, ds, nuc);
            NaturalAbund(first.state, ds, nuc) == first
  {
    var first := NaturalAbund(st, ds, nuc);
    if nuc !in first.state.naturalAbund {
      assert IsExcited(nuc);
      var g := GroundState(nuc);
      assert g in first.state.naturalAbund && first.state.naturalAbund[g] == first.value;
      assert nuc in first.state.atomicMass && first.state.atomicMass[nuc] == first.value;
      assert first.state.atomicMass[nuc := first.value] == first.state.atomicMass;
    }
  }

  /** A miss on an excited id in a non-empty table answers the mass of the
      ground state, computed in the same call. */
  lemma ExcitedMassIsGroundMass(st: MassState, ds: Dataset<MassRow>, nuc: int)
    requires st.atomicMass != map[]
    requires nuc !in st.atomicMass && IsExcited(nuc)
    ensures AtomicMass(st, ds, nuc).value == AtomicMass(st, ds, GroundState(nuc)).value
  {
  }

  /** A miss on an excited id in a non-empty table answers the abundance of
      the ground state, computed in the same call; so it is 0.0 when the
      ground state is missing too. */
  lemma ExcitedAbundIsGroundAbund(st: MassState, ds: Dataset<MassRow>, nuc: int)
    requires st.naturalAbund != map[]
    requires nuc !in st.naturalAbund && IsExcited(nuc)
    ensures NaturalAbund(st, ds, nuc).value == NaturalAbund(st, ds, GroundState(nuc)).value
    ensures GroundState(nuc) !in st.naturalAbund ==> NaturalAbund(st, ds, nuc).value == 0.0
  {
  }

  /** Without a readable dataset the mass is still estimated, never an error:
      while the mass table is empty, every id, ground or excited, gets its
      mass number. */
  lemma UnreadableStoreStillEstimatesMass(st: MassState, ds: Dataset<MassRow>, nuc: int)
    requires ds.Unreadable?
    requires st.atomicMass == map[]
    ensures AtomicMass(st, ds, nuc).value == MassNumber(nuc) as real
  {
  }

  /** Without a readable dataset the abundance falls through to the estimate:
      while the abundance table is empty, every id, ground or excited, gets 0.0. */
  lemma UnreadableStoreAbundanceIsZero(st: MassState, ds: Dataset<MassRow>, nuc: int)
    requires ds.Unreadable?
    requires st.naturalAbund == map[]
    ensures NaturalAbund(st, ds, nuc).value == 0.0
  {
  }

  /** An abundance absent from a non-empty table is exactly 0.0 for a ground
      state, whatever the dataset holds. */
  lemma MissingGroundAbundanceIsZero(st: MassState, ds: Dataset<MassRow>, nuc: int)
    requires st.naturalAbund != map[] && nuc !in st.naturalAbund && !IsExcited(nuc)
    ensures NaturalAbund(st, ds, nuc).value == 0.0
  {
  }

  /** On a cold cache the first query loads, and a nuclide the dataset lists
      gets the mass and the abundance of the last row that names it. */
  lemma {:induction false} ColdQueryReadsDataset(rows: seq<MassRow>, i: int)
    requires 0 <= i < |rows|
    requires forall j :: i < j < |rows| ==> rows[j].nuc != rows[i].nuc
    ensures AtomicMass(Empty, Rows(rows), rows[i].nuc) == Reply(rows[i].mass, LoadAtomicMassMap(Empty, rows))
    ensures NaturalAbund(Empty, Rows(rows), rows[i].nuc) == Reply(rows[i].abund, LoadAtomicMassMap(Empty, rows))
  {
    LoadedRowWins(Empty, rows, i);
  }

  /** On a cold cache, a ground-state nuclide the dataset does not list gets
      the estimates over the loaded tables: its mass number as mass and 0.0
      as abundance, each memoized in its own table. */
  lemma ColdQueryOfUnlistedGround(rows: seq<MassRow>, nuc: int)
    requires |rows| > 0 && !IsExcited(nuc)
    requires forall j :: 0 <= j < |rows| ==> rows[j].nuc != nuc
    ensures var loaded := LoadAtomicMassMap(Empty, rows);
            AtomicMass(Empty, Rows(rows), nuc)
              == Reply(MassNumber(nuc) as real, loaded.(atomicMass := loaded.atomicMass[nuc := MassNumber(nuc) as real]))
    ensures var loaded := LoadAtomicMassMap(Empty, rows);
            NaturalAbund(Empty, Rows(rows), nuc)
              == Reply(0.0, loaded.(naturalAbund := loaded.naturalAbund[nuc := 0.0]))
  {
  }

  /** On a cold cache, an excited nuclide the dataset does not list gets the
      answer of its ground state over the loaded tables; the abundance is not
      written into the abundance table under the excited id. */
  lemma ColdQueryOfUnlistedExcited(rows: seq<MassRow>, nuc: int)
    requires |rows| > 0 && IsExcited(nuc)
    requires forall j :: 0 <= j < |rows| ==> rows[j].nuc != nuc
    ensures var loaded := LoadAtomicMassMap(Empty, rows);
            AtomicMass(Empty, Rows(rows), nuc).value == AtomicMass(loaded, Rows(rows), GroundState(nuc)).value
    ensures var loaded := LoadAtomicMassMap(Empty, rows);
            NaturalAbund(Empty, Rows(rows), nuc).value == NaturalAbund(loaded, Rows(rows), GroundState(nuc)).value
    ensures nuc !in NaturalAbund(Empty, Rows(rows), nuc).state.naturalAbund
  {
  }

  /** One-row dataset for U-235: the mass and abundance come from the row, and
      the first excited state of U-235 gets the ground-state mass, memoized
      under its own id. */
  lemma Uranium235Scenario()
    ensures var ds := Rows([MassRow(922350000, 235.0439, 0.0, 0.0072)]);
            && AtomicMass(Empty, ds, 922350000).value == 235.0439
            && NaturalAbund(Empty, ds, 922350000).value == 0.0072
            && AtomicMass(Empty, ds, 922350001).value == 235.0439
            && 922350001 in AtomicMass(Empty, ds, 922350001).state.atomicMass
  {
  }
}

=== FILE: basics.dfy ===
/**
  Shared vocabulary of the nuclear-data cache: the two ways a bulk load can
  fail, a dataset as the reference store hands it over, and the reply shape
  of a query that threads the cache state through the call.
 */
module Basics {

  /** Why a bulk load could not read the reference store: the data file is
      missing, or it exists but is not an HDF5 file. */
  datatype LoadError = FileNotFound | FileNotHDF5

  /** What the reference store yields for one table: its records in file
      order, or the reason the file could not be read. */
  datatype Dataset<R> = Rows(rows: seq<R>) | Unreadable(error: LoadError)

  /** Outcome of a query whose bulk load may fail and whose caller sees the failure. */
  datatype Result<T> = Ok(value: T) | Err(error: LoadError)

  /** A query's answer together with the cache state left behind by the call. */
  datatype Reply<V, S> = Reply(value: V, state: S)

  datatype Option<T> = None | Some(value: T)

  /** A load from `ds` either fails or leaves at least one entry in the table
      it fills. The retry-after-load recursion of every query ends only when
      this holds (or the table is already non-empty): a load that succeeds
      with zero rows leaves the table empty and the query loads again forever. */
  predicate Refills<R>(ds: Dataset<R>) {
    ds.Unreadable? || |ds.rows| > 0
  }
}

=== FILE: cache_table.dfy ===
/**
  The two generic pieces every cache table is built from:

  - the ordered scan of a `std::map<int, V>`: walking the map from `begin()`
    and stopping at the first key that satisfies a test finds the least such
    key (`FirstKey`);
  - the bulk-load loop `table[key(row)] = val(row)` over the rows in file
    order, where a later row for the same key overwrites an earlier one
    (`LastWriter`).
 */
module CacheTable {
  import opened Basics

  /** Every non-empty set of integers has a least element. */
  lemma {:induction false} LeastExists(s: set<int>)
    requires s != {}
    ensures exists m :: m in s && forall y :: y in s ==> m <= y
    decreases |s|
  {
    if forall y :: y !in s {
      assert false;
    }
    var x :| x in s;
    var rest := s - {x};
    if rest == {} {
      forall y | y in s
        ensures x <= y
      {
        assert y !in rest;
      }
    } else {
      LeastExists(rest);
      var m :| m in rest && forall y :: y in rest ==> m <= y;
      var lo := if x < m then x else m;
      forall y | y in s
        ensures lo <= y
      {
        if y != x {
          assert y in rest;
        }
      }
      assert lo in s;
    }
  }

  /** The least element of a non-empty set of integers. */
  function SetMin(s: set<int>): (m: int)
    requires s != {}
    ensures m in s
    ensures forall y :: y in s ==> m <= y
  {
    LeastExists(s);
    var m :| m in s && forall y :: y in s ==> m <= y;
    m
  }

  /** Iterates the keys in ascending order and returns the first one that
      satisfies `p`, as a loop from `begin()` to `end()` over a `std::map`
      does. */
  function FirstKey(keys: set<int>, p: int -> bool): (r: Option<int>)
    ensures r.Some? ==> r.value in keys && p(r.value)
    ensures r.Some? ==> forall k :: k in keys && p(k) ==> r.value <= k
    ensures r.None? ==> forall k :: k in keys ==> !p(k)
    decreases |keys|
  {
    if keys == {} then None
    else
      var lo := SetMin(keys);
      if p(lo) then Some(lo) else FirstKey(keys - {lo}, p)
  }

  /** The keys that the rows of a load write. */
  function KeysOf<R, K>(rows: seq<R>, key: R -> K): set<K> {
    set i | 0 <= i < |rows| :: key(rows[i])
  }

  lemma KeysOfSnoc<R, K>(rows: seq<R>, key: R -> K)
    requires |rows| > 0
    ensures KeysOf(rows, key) == KeysOf(rows[..|rows| - 1], key) + {key(rows[|rows| - 1])}
  {
  }

  /** The bulk-load loop `table[key(row)] = val(row)` over `rows` in order,
      starting from the entries already in `m` (a load never clears a table). */
  function LastWriter<R, K, V>(m: map<K, V>, rows: seq<R>, key: R -> K, val: R -> V): (r: map<K, V>)
    ensures r.Keys == m.Keys + KeysOf(rows, key)
    decreases |rows|
  {
    if rows == [] then m
    else
      var last := rows[|rows| - 1];
      var before := LastWriter(m, rows[..|rows| - 1], key, val);
      KeysOfSnoc(rows, key);
      before[key(last) := val(last)]
  }

  /** A row that no later row overrides determines its key's entry. */
  lemma {:induction false} LastWriterWins<R, K, V>(m: map<K, V>, rows: seq<R>, key: R -> K, val: R -> V, i: int)
    requires 0 <= i < |rows|
    requires forall j :: i < j < |rows| ==> key(rows[j]) != key(rows[i])
    ensures key(rows[i]) in LastWriter(m, rows, key, val)
    ensures LastWriter(m, rows, key, val)[key(rows[i])] == val(rows[i])
    decreases |rows|
  {
    if i < |rows| - 1 {
      var front := rows[..|rows| - 1];
      assert front[i] == rows[i];
      forall j | i < j < |front|
        ensures key(front[j]) != key(front[i])
      {
        assert front[j] == rows[j];
      }
      LastWriterWins(m, front, key, val, i);
    }
  }

  /** A key that no row mentions keeps the entry it had before the load. */
  lemma {:induction false} LastWriterKeeps<R, K, V>(m: map<K, V>, rows: seq<R>, key: R -> K, val: R -> V, k: K)
    requires k in m
    requires forall j :: 0 <= j < |rows| ==> key(rows[j]) != k
    ensures LastWriter(m, rows, key, val)[k] == m[k]
    decreases |rows|
  {
    if rows != [] {
      var front := rows[..|rows| - 1];
      forall j | 0 <= j < |front|
        ensures key(front[j]) != k
      {
        assert front[j] == rows[j];
      }
      LastWriterKeeps(m, front, key, val, k);
    }
  }

  /** A load of at least one row leaves the table non-empty. */
  lemma LastWriterNonEmpty<R, K, V>(m: map<K, V>, rows: seq<R>, key: R -> K, val: R -> V)
    ensures |rows| > 0 ==> LastWriter(m, rows, key, val) != map[]
  {
    if |rows| > 0 {
      assert key(rows[0]) in KeysOf(rows, key);
      assert key(rows[0]) in LastWriter(m, rows, key, val);
    }
  }
}

=== FILE: decay.dfy ===
/**
  Half-lives, decay constants, branch ratios, state energies and decay
  children, all filled by one loader from the `/decay/half_life` table.
  Half-life, decay constant and branch ratio give precedence to ground-state
  rows (level 0.0) or else to the first row seen; the state energy is
  last-writer-wins; a child is recorded only for rows with a non-zero decay
  constant. The three queries each load on their own empty table, propagate
  a load failure, and memoize a default (0.0, 0.0, no children) on a miss.
 */
module Decay {
  import opened Basics
  import opened CacheTable

  /** One row of the `/decay/half_life` table. */
  datatype DecayRow = DecayRow(
    fromNuc: int, level: real, toNuc: int,
    halfLife: real, decayConst: real, branchRatio: real)

  /** `half_life_map`, `decay_const_map`, `branch_ratio_map`, `state_energy_map`
      and `decay_children_map`. */
  datatype DecayState = DecayState(
    halfLife: map<int, real>,
    decayConst: map<int, real>,
    branchRatio: map<(int, int), real>,
    stateEnergy: map<int, real>,
    children: map<int, set<int>>)

  const Empty := DecayState(map[], map[], map[], map[], map[])

  function FromNuc(r: DecayRow): int { r.fromNuc }
  function FromTo(r: DecayRow): (int, int) { (r.fromNuc, r.toNuc) }
  function HalfLifeOf(r: DecayRow): real { r.halfLife }
  function DecayConstOf(r: DecayRow): real { r.decayConst }
  function BranchRatioOf(r: DecayRow): real { r.branchRatio }
  function LevelOf(r: DecayRow): real { r.level }

  /** The loop `if (0 == m.count(k) || 0.0 == level) m[k] = v;` over the rows
      in order: a row writes its key when the key is still absent or the row
      describes the ground level. */
  function FirstOrGround<K>(m: map<K, real>, rows: seq<DecayRow>, key: DecayRow -> K, val: DecayRow -> real)
    : (r: map<K, real>)
    ensures r.Keys == m.Keys + KeysOf(rows, key)
    decreases |rows|
  {
    if rows == [] then m
    else
      var last := rows[|rows| - 1];
      var before := FirstOrGround(m, rows[..|rows| - 1], key, val);
      KeysOfSnoc(rows, key);
      if key(last) !in before || last.level == 0.0 then before[key(last) := val(last)] else before
  }

  /** The last ground-level row for a key decides its entry. */
  lemma {:induction false} GroundRowWins<K>(m: map<K, real>, rows: seq<DecayRow>, key: DecayRow -> K,
                                          val: DecayRow -> real, i: int)
    requires 0 <= i < |rows| && rows[i].level == 0.0
    requires forall j :: i < j < |rows| && key(rows[j]) == key(rows[i]) ==> rows[j].level != 0.0
    ensures key(rows[i]) in FirstOrGround(m, rows, key, val)
    ensures FirstOrGround(m, rows, key, val)[key(rows[i])] == val(rows[i])
    decreases |rows|
  {
    if i < |rows| - 1 {
      var front := rows[..|rows| - 1];
      assert front[i] == rows[i];
      forall j | i < j < |front| && key(front[j]) == key(front[i])
        ensures front[j].level != 0.0
      {
        assert front[j] == rows[j];
      }
      GroundRowWins(m, front, key, val, i);
    }
  }

  /** Without a ground-level row for the key, an entry present before the load survives it. */
  lemma {:induction false} ExistingEntryKept<K>(m: map<K, real>, rows: seq<DecayRow>, key: DecayRow -> K,
                                              val: DecayRow -> real, k: K)
    requires k in m
    requires forall j :: 0 <= j < |rows| && key(rows[j]) == k ==> rows[j].level != 0.0
    ensures k in FirstOrGround(m, rows, key, val)
    ensures FirstOrGround(m, rows, key, val)[k] == m[k]
    decreases |rows|
  {
    if rows != [] {
      var front := rows[..|rows| - 1];
      forall j | 0 <= j < |front| && key(front[j]) == k
        ensures front[j].level != 0.0
      {
        assert front[j] == rows[j];
      }
      ExistingEntryKept(m, front, key, val, k);
    }
  }

  /** Without a ground-level row for a key that was absent, the first row seen decides its entry. */
  lemma {:induction false} FirstRowWins<K>(m: map<K, real>, rows: seq<DecayRow>, key: DecayRow -> K,
                                         val: DecayRow -> real, i: int)
    requires 0 <= i < |rows| && key(rows[i]) !in m
    requires forall j :: 0 <= j < i ==> key(rows[j]) != key(rows[i])
    requires forall j :: 0 <= j < |rows| && key(rows[j]) == key(rows[i]) ==> rows[j].level != 0.0
    ensures key(rows[i]) in FirstOrGround(m, rows, key, val)
    ensures FirstOrGround(m, rows, key, val)[key(rows[i])] == val(rows[i])
    decreases |rows|
  {
    var front := rows[..|rows| - 1];
    if i == |rows| - 1 {
      forall x | x in KeysOf(front, key)
        ensures x != key(rows[i])
      {
        var j :| 0 <= j < |front| && key(front[j]) == x;
        assert front[j] == rows[j];
      }
    } else {
      assert front[i] == rows[i];
      forall j | 0 <= j < |front| && key(front[j]) == key(front[i])
        ensures front[j].level != 0.0
      {
        assert front[j] == rows[j];
      }
      FirstRowWins(m, front, key, val, i);
    }
  }

  /** The children a load records for `k`: the targets of its rows with a
      non-zero decay constant. */
  function ChildrenOf(rows: seq<DecayRow>, k: int): set<int> {
    set i | 0 <= i < |rows| && rows[i].fromNuc == k && rows[i].decayConst != 0.0 :: rows[i].toNuc
  }

  lemma ChildrenOfSnoc(rows: seq<DecayRow>)
    requires |rows| > 0
    ensures forall k :: ChildrenOf(rows, k) ==
              ChildrenOf(rows[..|rows| - 1], k)
              + (var last := rows[|rows| - 1];
                 if last.fromNuc == k && last.decayConst != 0.0 then {last.toNuc} else {})
  {
  }

  /** The loop `if (0.0 != decay_const) decay_children_map[from].insert(to);`
      over the rows in order. */
  function AddChildren(m: map<int, set<int>>, rows: seq<DecayRow>): (r: map<int, set<int>>)
    ensures forall k :: k in r <==> k in m || ChildrenOf(rows, k) != {}
    ensures forall k :: k in r ==> r[k] == (if k in m then m[k] else {}) + ChildrenOf(rows, k)
    decreases |rows|
  {
    if rows == [] then m
    else
      var last := rows[|rows| - 1];
      var before := AddChildren(m, rows[..|rows| - 1]);
      ChildrenOfSnoc(rows);
      if last.decayConst != 0.0 then
        before[last.fromNuc := (if last.fromNuc in before then before[last.fromNuc] else {}) + {last.toNuc}]
      else before
  }

  /** Some row of a readable dataset records a child, so a load fills the children table. */
  predicate RefillsChildren(ds: Dataset<DecayRow>) {
    ds.Unreadable? || exists i :: 0 <= i < |ds.rows| && ds.rows[i].decayConst != 0.0
  }

  lemma ChildrenRecorded(m: map<int, set<int>>, rows: seq<DecayRow>)
    ensures RefillsChildren(Rows(rows)) ==> AddChildren(m, rows) != map[]
  {
  }

  /** `_load_half_life_decay`. Each of the five tables is updated by its own
      rule, reading only its own previous entries. */
  function LoadHalfLifeDecay(st: DecayState, rows: seq<DecayRow>): (r: DecayState)
    ensures r.halfLife.Keys == st.halfLife.Keys + KeysOf(rows, FromNuc)
    ensures r.decayConst.Keys == st.decayConst.Keys + KeysOf(rows, FromNuc)
    ensures r.branchRatio.Keys == st.branchRatio.Keys + KeysOf(rows, FromTo)
    ensures r.stateEnergy.Keys == st.stateEnergy.Keys + KeysOf(rows, FromNuc)
    ensures |rows| > 0 ==> r.decayConst != map[] && r.branchRatio != map[]
    ensures RefillsChildren(Rows(rows)) ==> r.children != map[]
  {
    assert |rows| > 0 ==> FromNuc(rows[0]) in KeysOf(rows, FromNuc);
    assert |rows| > 0 ==> FromTo(rows[0]) in KeysOf(rows, FromTo);
    ChildrenRecorded(st.children, rows);
    DecayState(
      FirstOrGround(st.halfLife, rows, FromNuc, HalfLifeOf),
      FirstOrGround(st.decayConst, rows, FromNuc, DecayConstOf),
      FirstOrGround(st.branchRatio, rows, FromTo, BranchRatioOf),
      LastWriter(st.stateEnergy, rows, FromNuc, LevelOf),
      AddChildren(st.children, rows))
  }

  /** `decay_const(int)`. */
  function DecayConst(st: DecayState, ds: Dataset<DecayRow>, nuc: int): (r: Result<Reply<real, DecayState>>)
    requires st.decayConst != map[] || Refills(ds)
    ensures r.Err? <==> st.decayConst == map[] && ds.Unreadable?
    ensures r.Err? ==> r.error == ds.error
    ensures r.Ok? ==> nuc in r.value.state.decayConst && r.value.state.decayConst[nuc] == r.value.value
    ensures nuc in st.decayConst ==> r == Ok(Reply(st.decayConst[nuc], st))
    ensures nuc !in st.decayConst && st.decayConst != map[] ==>
              r == Ok(Reply(0.0, st.(decayConst := st.decayConst[nuc := 0.0])))
    decreases if st.decayConst == map[] then 1 else 0
  {
    if nuc in st.decayConst then Ok(Reply(st.decayConst[nuc], st))
    else if st.decayConst == map[] then
      match ds
      case Unreadable(e) => Err(e)
      case Rows(rows) => DecayConst(LoadHalfLifeDecay(st, rows), ds, nuc)
    else Ok(Reply(0.0, st.(decayConst := st.decayConst[nuc := 0.0])))
  }

  /** `branch_ratio(std::pair<int, int>)`. */
  function BranchRatio(st: DecayState, ds: Dataset<DecayRow>, fromTo: (int, int))
    : (r: Result<Reply<real, DecayState>>)
    requires st.branchRatio != map[] || Refills(ds)
    ensures r.Err? <==> st.branchRatio == map[] && ds.Unreadable?
    ensures r.Err? ==> r.error == ds.error
    ensures r.Ok? ==> fromTo in r.value.state.branchRatio && r.value.state.branchRatio[fromTo] == r.value.value
    ensures fromTo in st.branchRatio ==> r == Ok(Reply(st.branchRatio[fromTo], st))
    ensures fromTo !in st.branchRatio && st.branchRatio != map[] ==>
              r == Ok(Reply(0.0, st.(branchRatio := st.branchRatio[fromTo := 0.0])))
    decreases if st.branchRatio == map[] then 1 else 0
  {
    if fromTo in st.branchRatio then Ok(Reply(st.branchRatio[fromTo], st))
    else if st.branchRatio == map[] then
      match ds
      case Unreadable(e) => Err(e)
      case Rows(rows) => BranchRatio(LoadHalfLifeDecay(st, rows), ds, fromTo)
    else Ok(Reply(0.0, st.(branchRatio := st.branchRatio[fromTo := 0.0])))
  }

  /** `decay_children(int)`. */
  function DecayChildren(st: DecayState, ds: Dataset<DecayRow>, nuc: int)
    : (r: Result<Reply<set<int>, DecayState>>)
    requires st.children != map[] || RefillsChildren(ds)
    ensures r.Err? <==> st.children == map[] && ds.Unreadable?
    ensures r.Err? ==> r.error == ds.error
    ensures r.Ok? ==> nuc in r.value.state.children && r.value.state.children[nuc] == r.value.value
    ensures nuc in st.children ==> r == Ok(Reply(st.children[nuc], st))
    ensures nuc !in st.children && st.children != map[] ==>
              r == Ok(Reply({}, st.(children := st.children[nuc := {}])))
    decreases if st.children == map[] then 1 else 0
  {
    if nuc in st.children then Ok(Reply(st.children[nuc], st))
    else if st.children == map[] then
      match ds
      case Unreadable(e) => Err(e)
      case Rows(rows) => DecayChildren(LoadHalfLifeDecay(st, rows), ds, nuc)
    else Ok(Reply({}, st.(children := st.children[nuc := {}])))
  }

  /** On a cold cache, the decay constant of a nuclide with a ground-level row
      is the one from its last ground-level row. */
  lemma ColdDecayConstFromGroundRow(rows: seq<DecayRow>, i: int)
    requires 0 <= i < |rows| && rows[i].level == 0.0
    requires forall j :: i < j < |rows| && rows[j].fromNuc == rows[i].fromNuc ==> rows[j].level != 0.0
    ensures DecayConst(Empty, Rows(rows), rows[i].fromNuc) ==
              Ok(Reply(rows[i].decayConst, LoadHalfLifeDecay(Empty, rows)))
  {
    GroundRowWins(Empty.decayConst, rows, FromNuc, DecayConstOf, i);
  }

  /** On a cold cache, the decay constant of a nuclide without any ground-level
      row is the one from its first row. */
  lemma ColdDecayConstFromFirstRow(rows: seq<DecayRow>, i: int)
    requires 0 <= i < |rows|
    requires forall j :: 0 <= j < i ==> rows[j].fromNuc != rows[i].fromNuc
    requires forall j :: 0 <= j < |rows| && rows[j].fromNuc == rows[i].fromNuc ==> rows[j].level != 0.0
    ensures DecayConst(Empty, Rows(rows), rows[i].fromNuc) ==
              Ok(Reply(rows[i].decayConst, LoadHalfLifeDecay(Empty, rows)))
  {
    FirstRowWins(Empty.decayConst, rows, FromNuc, DecayConstOf, i);
  }

  /** On a cold cache, a nuclide no row mentions is reported stable (0.0) and
      that answer is memoized. */
  lemma ColdDecayConstOfUnlisted(rows: seq<DecayRow>, nuc: int)
    requires |rows| > 0
    requires forall j :: 0 <= j < |rows| ==> rows[j].fromNuc != nuc
    ensures var loaded := LoadHalfLifeDecay(Empty, rows);
            DecayConst(Empty, Rows(rows), nuc) ==
              Ok(Reply(0.0, loaded.(decayConst := loaded.decayConst[nuc := 0.0])))
  {
  }

  /** On a cold cache, the branch ratio of a pair with a ground-level row is
      the one from its last ground-level row. */
  lemma ColdBranchRatioFromGroundRow(rows: seq<DecayRow>, i: int)
    requires 0 <= i < |rows| && rows[i].level == 0.0
    requires forall j :: i < j < |rows| && FromTo(rows[j]) == FromTo(rows[i]) ==> rows[j].level != 0.0
    ensures BranchRatio(Empty, Rows(rows), FromTo(rows[i])) ==
              Ok(Reply(rows[i].branchRatio, LoadHalfLifeDecay(Empty, rows)))
  {
    GroundRowWins(Empty.branchRatio, rows, FromTo, BranchRatioOf, i);
  }

  /** On a cold cache, the branch ratio of a pair without any ground-level row
      is the one from its first row. */
  lemma ColdBranchRatioFromFirstRow(rows: seq<DecayRow>, i: int)
    requires 0 <= i < |rows|
    requires forall j :: 0 <= j < i ==> FromTo(rows[j]) != FromTo(rows[i])
    requires forall j :: 0 <= j < |rows| && FromTo(rows[j]) == FromTo(rows[i]) ==> rows[j].level != 0.0
    ensures BranchRatio(Empty, Rows(rows), FromTo(rows[i])) ==
              Ok(Reply(rows[i].branchRatio, LoadHalfLifeDecay(Empty, rows)))
  {
    FirstRowWins(Empty.branchRatio, rows, FromTo, BranchRatioOf, i);
  }

  /** On a cold cache, a pair no row mentions has branch ratio 0.0, and that
      answer is memoized. */
  lemma ColdBranchRatioOfUnlisted(rows: seq<DecayRow>, fromTo: (int, int))
    requires |rows| > 0
    requires forall j :: 0 <= j < |rows| ==> FromTo(rows[j]) != fromTo
    ensures var loaded := LoadHalfLifeDecay(Empty, rows);
            BranchRatio(Empty, Rows(rows), fromTo) ==
              Ok(Reply(0.0, loaded.(branchRatio := loaded.branchRatio[fromTo := 0.0])))
  {
  }

  /** On a cold cache, the children of any nuclide are exactly the targets of
      its rows with a non-zero decay constant (none for an unlisted nuclide). */
  lemma ColdDecayChildren(rows: seq<DecayRow>, nuc: int)
    requires RefillsChildren(Rows(rows))
    ensures DecayChildren(Empty, Rows(rows), nuc).Ok?
    ensures DecayChildren(Empty, Rows(rows), nuc).value.value == ChildrenOf(rows, nuc)
  {
  }

  /** The state-energy table keeps the level of the last row for each nuclide,
      regardless of ground-state precedence. */
  lemma StateEnergyIsLastWriter(st: DecayState, rows: seq<DecayRow>, i: int)
    requires 0 <= i < |rows|
    requires forall j :: i < j < |rows| ==> rows[j].fromNuc != rows[i].fromNuc
    ensures rows[i].fromNuc in LoadHalfLifeDecay(st, rows).stateEnergy
    ensures LoadHalfLifeDecay(st, rows).stateEnergy[rows[i].fromNuc] == rows[i].level
  {
    LastWriterWins(st.stateEnergy, rows, FromNuc, LevelOf, i);
  }
}

=== FILE: decay_data.dfy ===
/**
  The decay-record table `decay_data`, keyed by (parent, daughter) and filled
  from `/decay/decays`, with the generic field accessor `data_access` in its
  two forms -- one record by pair, or every record of a parent -- and the
  named accessors built on them. The accessor names a field by byte offset in
  pyne's C++; here it names it by `DecayField`.
 */
module DecayData {
  import opened Basics
  import opened CacheTable

  /** One record of `/decay/decays`. */
  datatype DecayRecord = DecayRecord(
    parent: int, daughter: int, decay: string,
    halfLife: real, halfLifeError: real,
    branchRatio: real,
    photonBranchRatio: real, photonBranchRatioError: real,
    betaBranchRatio: real, betaBranchRatioError: real)

  type DecayTable = map<(int, int), DecayRecord>

  /** The numeric fields an accessor can read. */
  datatype DecayField =
    | HalfLifeField | HalfLifeErrorField
    | BranchRatioField
    | PhotonBranchRatioField | PhotonBranchRatioErrorField
    | BetaBranchRatioField | BetaBranchRatioErrorField

  function Project(rec: DecayRecord, f: DecayField): real {
    match f
    case HalfLifeField => rec.halfLife
    case HalfLifeErrorField => rec.halfLifeError
    case BranchRatioField => rec.branchRatio
    case PhotonBranchRatioField => rec.photonBranchRatio
    case PhotonBranchRatioErrorField => rec.photonBranchRatioError
    case BetaBranchRatioField => rec.betaBranchRatio
    case BetaBranchRatioErrorField => rec.betaBranchRatioError
  }

  function RecordPair(r: DecayRecord): (int, int) { (r.parent, r.daughter) }
  function Whole(r: DecayRecord): DecayRecord { r }

  /** `_load_data<decay_struct>`: each record is stored under its own pair, later records winning. */
  function LoadDecayData(table: DecayTable, rows: seq<DecayRecord>): (r: DecayTable)
    ensures r.Keys == table.Keys + KeysOf(rows, RecordPair)
    ensures |rows| > 0 ==> r != map[]
  {
    LastWriterNonEmpty(table, rows, RecordPair, Whole);
    LastWriter(table, rows, RecordPair, Whole)
  }

  /** `data_access<T, U>(std::pair<int, int>, ...)`: the field of the record
      for the pair; on a miss in an empty table, load and retry; otherwise 0,
      without inserting anything. */
  function DataAccess(table: DecayTable, ds: Dataset<DecayRecord>, fromTo: (int, int), f: DecayField)
    : (r: Result<Reply<real, DecayTable>>)
    requires table != map[] || Refills(ds)
    ensures r.Err? <==> table == map[] && ds.Unreadable?
    ensures r.Err? ==> r.error == ds.error
    ensures r.Ok? ==> r.value.state == (if table != map[] then table else LoadDecayData(table, ds.rows))
    ensures r.Ok? ==> r.value.state != map[]
    ensures r.Ok? ==> r.value.value == (if fromTo in r.value.state then Project(r.value.state[fromTo], f) else 0.0)
    decreases if table == map[] then 1 else 0
  {
    if fromTo in table then Ok(Reply(Project(table[fromTo], f), table))
    else if table == map[] then
      match ds
      case Unreadable(e) => Err(e)
      case Rows(rows) => DataAccess(LoadDecayData(table, rows), ds, fromTo, f)
    else Ok(Reply(0.0, table))
  }

  /** A C++ conversion of an integer to a 32-bit `int`: the value congruent
      to `x` modulo 2^32 in [-2^31, 2^31). */
  function Int32Wrap(x: int): (r: int)
    ensures -0x8000_0000 <= r < 0x8000_0000
    ensures (x - r) % 0x1_0000_0000 == 0
  {
    var m := x % 0x1_0000_0000;
    if m >= 0x8000_0000 then m - 0x1_0000_0000 else m
  }

  /** A value already in the 32-bit range survives the conversion. */
  lemma Int32WrapKeepsInt32(x: int)
    requires -0x8000_0000 <= x < 0x8000_0000
    ensures Int32Wrap(x) == x
  {
  }

  /** The upper daughter bound of the range accessor: the literal 9999999999
      converted to a 32-bit `int` for the key pair. */
  const DaughterUpperBound: int := Int32Wrap(9999999999)

  lemma DaughterUpperBoundValue()
    ensures DaughterUpperBound == 1410065407
  {
  }

  predicate InRange(d: int) {
    0 <= d <= DaughterUpperBound
  }

  /** The daughters of `parent` that the range accessor visits: the keys from
      `(parent, 0)` through `(parent, DaughterUpperBound)`. */
  function Daughters(table: DecayTable, parent: int): set<int> {
    set k | k in table && k.0 == parent && InRange(k.1) :: k.1
  }

  /** The first record the range accessor visits for `parent`: the one with
      the least daughter in range. */
  function LeastDaughter(table: DecayTable, parent: int): (d: int)
    requires Daughters(table, parent) != {}
    ensures (parent, d) in table && InRange(d)
    ensures forall e :: (parent, e) in table && InRange(e) ==> d <= e
  {
    var ds := Daughters(table, parent);
    var d := SetMin(ds);
    forall e | (parent, e) in table && InRange(e)
      ensures d <= e
    {
      assert e in ds;
    }
    d
  }

  /** The record `LeastDaughter` names, when the parent has any record in range. */
  function First(table: DecayTable, parent: int): DecayRecord
    requires Daughters(table, parent) != {}
  {
    table[(parent, LeastDaughter(table, parent))]
  }

  /** The loop of the range accessor. It runs once per visited record but
      reads every time from the FIRST visited record, so all elements are
      equal. */
  function RangeScan(table: DecayTable, parent: int, f: DecayField): (r: seq<real>)
    ensures |r| == |Daughters(table, parent)|
    ensures forall i :: 0 <= i < |r| ==> r[i] == Project(First(table, parent), f)
  {
    var ds := Daughters(table, parent);
    if ds == {} then []
    else
      var v := Project(First(table, parent), f);
      seq(|ds|, _ => v)
  }

  /** `data_access<T, U>(int parent, ...)`: the range scan; when the table is
      empty (so the scan found nothing), load and retry. */
  function DataAccessRange(table: DecayTable, ds: Dataset<DecayRecord>, parent: int, f: DecayField)
    : (r: Result<Reply<seq<real>, DecayTable>>)
    requires table != map[] || Refills(ds)
    ensures r.Err? <==> table == map[] && ds.Unreadable?
    ensures r.Err? ==> r.error == ds.error
    ensures r.Ok? ==> r.value.state == (if table != map[] then table else LoadDecayData(table, ds.rows))
    ensures r.Ok? ==> r.value.state != map[]
    ensures r.Ok? ==> r.value.value == RangeScan(r.value.state, parent, f)
    decreases if table == map[] then 1 else 0
  {
    if table == map[] then
      match ds
      case Unreadable(e) => Err(e)
      case Rows(rows) => DataAccessRange(LoadDecayData(table, rows), ds, parent, f)
    else Ok(Reply(RangeScan(table, parent, f), table))
  }

  /** Two pair accessors in sequence, the second on the cache the first left:
      a value and its error, as `decay_half_life` and its photon and beta
      counterparts return them. */
  function ValueAndError(table: DecayTable, ds: Dataset<DecayRecord>, fromTo: (int, int), f: DecayField, g: DecayField)
    : (r: Result<Reply<(real, real), DecayTable>>)
    requires table != map[] || Refills(ds)
    ensures r.Err? <==> table == map[] && ds.Unreadable?
    ensures r.Err? ==> r.error == ds.error
    ensures r.Ok? ==> r.value.state == (if table != map[] then table else LoadDecayData(table, ds.rows))
    ensures r.Ok? && fromTo in r.value.state ==>
              r.value.value == (Project(r.value.state[fromTo], f), Project(r.value.state[fromTo], g))
    ensures r.Ok? && fromTo !in r.value.state ==> r.value.value == (0.0, 0.0)
  {
    match DataAccess(table, ds, fromTo, f)
    case Err(e) => Err(e)
    case Ok(first) =>
      match DataAccess(first.state, ds, fromTo, g)
      case Err(e) => Err(e)
      case Ok(second) => Ok(Reply((first.value, second.value), second.state))
  }

  /** Pairs up two sequences of equal length. */
  function Zip(a: seq<real>, b: seq<real>): (z: seq<(real, real)>)
    requires |a| == |b|
    ensures |z| == |a|
    ensures forall i :: 0 <= i < |z| ==> z[i] == (a[i], b[i])
  {
    seq(|a|, i requires 0 <= i < |a| => (a[i], b[i]))
  }

  /** Two range accessors in sequence, paired element by element: a value and
      its error for every record of a parent, as `decay_half_lifes` and its
      photon and beta counterparts return them. */
  function ValuesAndErrors(table: DecayTable, ds: Dataset<DecayRecord>, parent: int, f: DecayField, g: DecayField)
    : (r: Result<Reply<seq<(real, real)>, DecayTable>>)
    requires table != map[] || Refills(ds)
    ensures r.Err? <==> table == map[] && ds.Unreadable?
    ensures r.Err? ==> r.error == ds.error
    ensures r.Ok? ==> r.value.state == (if table != map[] then table else LoadDecayData(table, ds.rows))
    ensures r.Ok? ==> |r.value.value| == |Daughters(r.value.state, parent)|
    ensures r.Ok? ==> forall i :: 0 <= i < |r.value.value| ==>
                        r.value.value[i] == (Project(First(r.value.state, parent), f), Project(First(r.value.state, parent), g))
  {
    match DataAccessRange(table, ds, parent, f)
    case Err(e) => Err(e)
    case Ok(first) =>
      match DataAccessRange(first.state, ds, parent, g)
      case Err(e) => Err(e)
      case Ok(second) => Ok(Reply(Zip(first.value, second.value), second.state))
  }

  /** `decay_half_life(std::pair<int, int>)`: half-life and its error. */
  function DecayHalfLife(table: DecayTable, ds: Dataset<DecayRecord>, fromTo: (int, int))
    : (r: Result<Reply<(real, real), DecayTable>>)
    requires table != map[] || Refills(ds)
    ensures r.Err? <==> table == map[] && ds.Unreadable?
    ensures r.Err? ==> r.error == ds.error
    ensures r.Ok? ==> r.value.state == (if table != map[] then table else LoadDecayData(table, ds.rows))
    ensures r.Ok? ==> r.value.value == (if fromTo in r.value.state
                                       then (r.value.state[fromTo].halfLife, r.value.state[fromTo].halfLifeError)
                                       else (0.0, 0.0))
  {
    ValueAndError(table, ds, fromTo, HalfLifeField, HalfLifeErrorField)
  }

  /** `decay_half_lifes(int)`. */
  function DecayHalfLifes(table: DecayTable, ds: Dataset<DecayRecord>, parent: int)
    : (r: Result<Reply<seq<(real, real)>, DecayTable>>)
    requires table != map[] || Refills(ds)
    ensures r.Err? <==> table == map[] && ds.Unreadable?
    ensures r.Err? ==> r.error == ds.error
    ensures r.Ok? ==> r.value.state == (if table != map[] then table else LoadDecayData(table, ds.rows))
    ensures r.Ok? ==> |r.value.value| == |Daughters(r.value.state, parent)|
    ensures r.Ok? ==> forall i :: 0 <= i < |r.value.value| ==>
                        r.value.value[i] == (First(r.value.state, parent).halfLife, First(r.value.state, parent).halfLifeError)
  {
    ValuesAndErrors(table, ds, parent, HalfLifeField, HalfLifeErrorField)
  }

  /** `decay_branch_ratio(std::pair<int, int>)`. */
  function DecayBranchRatio(table: DecayTable, ds: Dataset<DecayRecord>, fromTo: (int, int))
    : (r: Result<Reply<real, DecayTable>>)
    requires table != map[] || Refills(ds)
    ensures r.Err? <==> table == map[] && ds.Unreadable?
    ensures r.Err? ==> r.error == ds.error
    ensures r.Ok? ==> r.value.state == (if table != map[] then table else LoadDecayData(table, ds.rows))
    ensures r.Ok? ==> r.value.value == (if fromTo in r.value.state then r.value.state[fromTo].branchRatio else 0.0)
  {
    DataAccess(table, ds, fromTo, BranchRatioField)
  }

  /** `decay_branch_ratios(int)`: reads the HALF-LIFE field, as pyne's
      `decay_branch_ratios` does. */
  function DecayBranchRatios(table: DecayTable, ds: Dataset<DecayRecord>, parent: int)
    : (r: Result<Reply<seq<real>, DecayTable>>)
    requires table != map[] || Refills(ds)
    ensures r.Err? <==> table == map[] && ds.Unreadable?
    ensures r.Err? ==> r.error == ds.error
    ensures r.Ok? ==> r.value.state == (if table != map[] then table else LoadDecayData(table, ds.rows))
    ensures r.Ok? ==> |r.value.value| == |Daughters(r.value.state, parent)|
    ensures r.Ok? ==> forall i :: 0 <= i < |r.value.value| ==>
                        r.value.value[i] == First(r.value.state, parent).halfLife
  {
    DataAccessRange(table, ds, parent, HalfLifeField)
  }

  /** `decay_photon_branch_ratio(std::pair<int, int>)`. */
  function DecayPhotonBranchRatio(table: DecayTable, ds: Dataset<DecayRecord>, fromTo: (int, int))
    : (r: Result<Reply<(real, real), DecayTable>>)
    requires table != map[] || Refills(ds)
    ensures r.Err? <==> table == map[] && ds.Unreadable?
    ensures r.Err? ==> r.error == ds.error
    ensures r.Ok? ==> r.value.state == (if table != map[] then table else LoadDecayData(table, ds.rows))
    ensures r.Ok? ==> r.value.value == (if fromTo in r.value.state
                                       then (r.value.state[fromTo].photonBranchRatio, r.value.state[fromTo].photonBranchRatioError)
                                       else (0.0, 0.0))
  {
    ValueAndError(table, ds, fromTo, PhotonBranchRatioField, PhotonBranchRatioErrorField)
  }

  /** `decay_photon_branch_ratios(int)`. */
  function DecayPhotonBranchRatios(table: DecayTable, ds: Dataset<DecayRecord>, parent: int)
    : (r: Result<Reply<seq<(real, real)>, DecayTable>>)
    requires table != map[] || Refills(ds)
    ensures r.Err? <==> table == map[] && ds.Unreadable?
    ensures r.Err? ==> r.error == ds.error
    ensures r.Ok? ==> r.value.state == (if table != map[] then table else LoadDecayData(table, ds.rows))
    ensures r.Ok? ==> |r.value.value| == |Daughters(r.value.state, parent)|
    ensures r.Ok? ==> forall i :: 0 <= i < |r.value.value| ==>
                        r.value.value[i] == (First(r.value.state, parent).photonBranchRatio, First(r.value.state, parent).photonBranchRatioError)
  {
    ValuesAndErrors(table, ds, parent, PhotonBranchRatioField, PhotonBranchRatioErrorField)
  }

  /** `decay_beta_branch_ratio(std::pair<int, int>)`. */
  function DecayBetaBranchRatio(table: DecayTable, ds: Dataset<DecayRecord>, fromTo: (int, int))
    : (r: Result<Reply<(real, real), DecayTable>>)
    requires table != map[] || Refills(ds)
    ensures r.Err? <==> table == map[] && ds.Unreadable?
    ensures r.Err? ==> r.error == ds.error
    ensures r.Ok? ==> r.value.state == (if table != map[] then table else LoadDecayData(table, ds.rows))
    ensures r.Ok? ==> r.value.value == (if fromTo in r.value.state
                                       then (r.value.state[fromTo].betaBranchRatio, r.value.state[fromTo].betaBranchRatioError)
                                       else (0.0, 0.0))
  {
    ValueAndError(table, ds, fromTo, BetaBranchRatioField, BetaBranchRatioErrorField)
  }

  /** `decay_beta_branch_ratios(int)`. */
  function DecayBetaBranchRatios(table: DecayTable, ds: Dataset<DecayRecord>, parent: int)
    : (r: Result<Reply<seq<(real, real)>, DecayTable>>)
    requires table != map[] || Refills(ds)
    ensures r.Err? <==> table == map[] && ds.Unreadable?
    ensures r.Err? ==> r.error == ds.error
    ensures r.Ok? ==> r.value.state == (if table != map[] then table else LoadDecayData(table, ds.rows))
    ensures r.Ok? ==> |r.value.value| == |Daughters(r.value.state, parent)|
    ensures r.Ok? ==> forall i :: 0 <= i < |r.value.value| ==>
                        r.value.value[i] == (First(r.value.state, parent).betaBranchRatio, First(r.value.state, parent).betaBranchRatioError)
  {
    ValuesAndErrors(table, ds, parent, BetaBranchRatioField, BetaBranchRatioErrorField)
  }

  /** On a cold cache, the pair accessor answers the field of the last record
      the dataset holds for the pair, and 0 for a pair it does not hold. */
  lemma {:induction false} ColdDataAccess(rows: seq<DecayRecord>, f: DecayField, i: int, absent: (int, int))
    requires 0 <= i < |rows|
    requires forall j :: i < j < |rows| ==> RecordPair(rows[j]) != RecordPair(rows[i])
    requires forall j :: 0 <= j < |rows| ==> RecordPair(rows[j]) != absent
    ensures DataAccess(map[], Rows(rows), RecordPair(rows[i]), f) == Ok(Reply(Project(rows[i], f), LoadDecayData(map[], rows)))
    ensures DataAccess(map[], Rows(rows), absent, f) == Ok(Reply(0.0, LoadDecayData(map[], rows)))
  {
    LastWriterWins(map[], rows, RecordPair, Whole, i);
    assert absent !in KeysOf(rows, RecordPair);
  }

  /** A miss in a non-empty table leaves it unchanged, so asking again gives
      the same 0 with the same cache. */
  lemma DataAccessIdempotent(table: DecayTable, ds: Dataset<DecayRecord>, fromTo: (int, int), f: DecayField)
    requires table != map[] || Refills(ds)
    requires DataAccess(table, ds, fromTo, f).Ok?
    ensures var first := DataAccess(table, ds, fromTo, f).value;
            DataAccess(first.state, ds, fromTo, f) == Ok(first)
  {
  }

  /** Two decays of one parent with different half-lives and branch ratios.
      The range accessors repeat the first record's value instead of giving
      each record's own; `decay_branch_ratios` reports half-lives, while the
      pair accessor `decay_branch_ratio` reports the branch ratio. */
  lemma {:induction false} RangeAccessorsRepeatFirstRecord()
    ensures var a := DecayRecord(10, 20, "B-", 1.0, 0.1, 0.25, 0.0, 0.0, 0.0, 0.0);
            var b := DecayRecord(10, 30, "A", 2.0, 0.2, 0.75, 0.0, 0.0, 0.0, 0.0);
            var table := map[(10, 20) := a, (10, 30) := b];
            && DecayHalfLifes(table, Unreadable(FileNotFound), 10) == Ok(Reply([(1.0, 0.1), (1.0, 0.1)], table))
            && DecayBranchRatios(table, Unreadable(FileNotFound), 10) == Ok(Reply([1.0, 1.0], table))
            && DecayBranchRatio(table, Unreadable(FileNotFound), (10, 30)) == Ok(Reply(0.75, table))
  {
    var a := DecayRecord(10, 20, "B-", 1.0, 0.1, 0.25, 0.0, 0.0, 0.0, 0.0);
    var b := DecayRecord(10, 30, "A", 2.0, 0.2, 0.75, 0.0, 0.0, 0.0, 0.0);
    var table := map[(10, 20) := a, (10, 30) := b];
    DaughterUpperBoundValue();
    assert (10, 20) in table && (10, 30) in table;
    assert Daughters(table, 10) == {20, 30} by {
      assert 20 in Daughters(table, 10);
      assert 30 in Daughters(table, 10);
    }
    assert |Daughters(table, 10)| == 2;
    var h := DataAccessRange(table, Unreadable(FileNotFound), 10, HalfLifeField).value.value;
    var e := DataAccessRange(table, Unreadable(FileNotFound), 10, HalfLifeErrorField).value.value;
    assert |h| == 2 && h[0] == 1.0 && h[1] == 1.0;
    assert h == [1.0, 1.0];
    assert |e| == 2 && e[0] == 0.1 && e[1] == 0.1;
    assert Zip(h, e) == [(1.0, 0.1), (1.0, 0.1)];
  }
}

=== FILE: fission_yield.dfy ===
/**
  Fission product yields from two pair-keyed tables: the WIMSD yields
  (`/neutron/wimsd_fission_products`, one fraction per parent/product pair)
  and the NDS yields (`/neutron/nds_fission_products`, thermal, fast and
  14 MeV yields with their errors). Source 0 reads the WIMSD table, sources
  1 to 3 the NDS table. Every miss that survives the loads answers 0.0 and
  memoizes it in the WIMSD table, whichever source was asked.
 */
module FissionYield {
  import opened Basics
  import opened CacheTable

  /** One row of `/neutron/wimsd_fission_products`. */
  datatype WimsRow = WimsRow(fromNuc: int, toNuc: int, fraction: real)

  /** The six values kept for one pair of `/neutron/nds_fission_products`. */
  datatype NdsYield = NdsYield(
    thermal: real, thermalErr: real,
    fast: real, fastErr: real,
    mev14: real, mev14Err: real)

  /** One row of `/neutron/nds_fission_products`. */
  datatype NdsRow = NdsRow(fromNuc: int, toNuc: int, values: NdsYield)

  /** `wimsdfpy_data` and `ndsfpy_data`. */
  datatype FissionState = FissionState(wims: map<(int, int), real>, nds: map<(int, int), NdsYield>)

  const Empty := FissionState(map[], map[])

  function WimsPair(r: WimsRow): (int, int) { (r.fromNuc, r.toNuc) }
  function WimsValue(r: WimsRow): real { r.fraction }
  function NdsPair(r: NdsRow): (int, int) { (r.fromNuc, r.toNuc) }
  function NdsValue(r: NdsRow): NdsYield { r.values }

  /** `_load_wimsdfpy`: later rows for a pair win. */
  function LoadWimsFpy(m: map<(int, int), real>, rows: seq<WimsRow>): (r: map<(int, int), real>)
    ensures r.Keys == m.Keys + KeysOf(rows, WimsPair)
    ensures |rows| > 0 ==> r != map[]
  {
    LastWriterNonEmpty(m, rows, WimsPair, WimsValue);
    LastWriter(m, rows, WimsPair, WimsValue)
  }

  /** `_load_ndsfpy`: later rows for a pair win. */
  function LoadNdsFpy(m: map<(int, int), NdsYield>, rows: seq<NdsRow>): (r: map<(int, int), NdsYield>)
    ensures r.Keys == m.Keys + KeysOf(rows, NdsPair)
    ensures |rows| > 0 ==> r != map[]
  {
    LastWriterNonEmpty(m, rows, NdsPair, NdsValue);
    LastWriter(m, rows, NdsPair, NdsValue)
  }

  /** The NDS value a source selects: thermal (1), fast (2) or 14 MeV (3),
      or its error when asked; no value for any other source. */
  function Select(y: NdsYield, source: int, getError: bool): (v: Option<real>)
    ensures v.Some? <==> 1 <= source <= 3
    ensures source == 1 ==> v == Some(if getError then y.thermalErr else y.thermal)
    ensures source == 2 ==> v == Some(if getError then y.fastErr else y.fast)
    ensures source == 3 ==> v == Some(if getError then y.mev14Err else y.mev14)
  {
    if source == 1 then Some(if getError then y.thermalErr else y.thermal)
    else if source == 2 then Some(if getError then y.fastErr else y.fast)
    else if source == 3 then Some(if getError then y.mev14Err else y.mev14)
    else None
  }

  /** The WIMSD table once a query has done its loading: only a source-0
      query loads it, and only when it is empty. */
  function WimsAfter(st: FissionState, wimsDs: Dataset<WimsRow>, source: int): map<(int, int), real> {
    if source == 0 && st.wims == map[] && wimsDs.Rows? then LoadWimsFpy(st.wims, wimsDs.rows) else st.wims
  }

  /** A query that the WIMSD table cannot answer goes on to the NDS table
      (and loads it if it is empty). */
  predicate ReachesNds(st: FissionState, wimsDs: Dataset<WimsRow>, fromTo: (int, int), source: int) {
    !(source == 0 && fromTo in WimsAfter(st, wimsDs, source))
  }

  /** The WIMSD load is attempted and fails. */
  predicate WimsLoadFails(st: FissionState, wimsDs: Dataset<WimsRow>, source: int) {
    source == 0 && st.wims == map[] && wimsDs.Unreadable?
  }

  /** The NDS table once a query has done its loading. */
  function NdsAfter(st: FissionState, wimsDs: Dataset<WimsRow>, ndsDs: Dataset<NdsRow>, fromTo: (int, int), source: int)
    : map<(int, int), NdsYield>
  {
    if ReachesNds(st, wimsDs, fromTo, source) && st.nds == map[] && ndsDs.Rows?
    then LoadNdsFpy(st.nds, ndsDs.rows) else st.nds
  }

  /** The query finds nothing once the loads are done: source 0 misses the
      WIMSD table, and any other source does not find a value in the NDS table
      (always so for a source other than 1 to 3). */
  predicate MissesAfterLoads(st: FissionState, wimsDs: Dataset<WimsRow>, ndsDs: Dataset<NdsRow>,
                             fromTo: (int, int), source: int)
  {
    if source == 0 then fromTo !in WimsAfter(st, wimsDs, source)
    else !(1 <= source <= 3 && fromTo in NdsAfter(st, wimsDs, ndsDs, fromTo, source))
  }

  /** `fpyield(std::pair<int, int>, int source, bool get_error)`: look the pair
      up in the table of the source; on a miss load the WIMSD table (source 0
      only) or else the NDS table if it is empty and retry; otherwise answer
      0.0 and memoize it in the WIMSD table. */
  function FpYield(st: FissionState, wimsDs: Dataset<WimsRow>, ndsDs: Dataset<NdsRow>,
                   fromTo: (int, int), source: int, getError: bool)
    : (r: Result<Reply<real, FissionState>>)
    requires source != 0 || st.wims != map[] || Refills(wimsDs)
    requires st.nds != map[] || Refills(ndsDs) || !ReachesNds(st, wimsDs, fromTo, source)
    // which load, if any, fails; its error reaches the caller
    ensures r.Err? <==> (|| WimsLoadFails(st, wimsDs, source)
                         || (!WimsLoadFails(st, wimsDs, source) && ReachesNds(st, wimsDs, fromTo, source)
                             && st.nds == map[] && ndsDs.Unreadable?))
    ensures r.Err? ==> r.error == (if WimsLoadFails(st, wimsDs, source) then wimsDs.error else ndsDs.error)
    // the NDS table is loaded exactly when the query reaches it empty
    ensures r.Ok? ==> r.value.state.nds == NdsAfter(st, wimsDs, ndsDs, fromTo, source)
    // the WIMSD table is the loaded one, plus a 0.0 for the queried pair exactly when the query misses
    ensures r.Ok? ==> r.value.state.wims == (if MissesAfterLoads(st, wimsDs, ndsDs, fromTo, source)
                                             then WimsAfter(st, wimsDs, source)[fromTo := 0.0]
                                             else WimsAfter(st, wimsDs, source))
    // source 0: the WIMSD yield, memoized as 0.0 when absent; the error flag is ignored
    ensures r.Ok? && source == 0 ==>
              fromTo in r.value.state.wims && r.value.state.wims[fromTo] == r.value.value
              && r.value.value == (if fromTo in WimsAfter(st, wimsDs, source) then WimsAfter(st, wimsDs, source)[fromTo] else 0.0)
    // sources 1-3: the selected NDS value, or 0.0 memoized in the WIMSD table
    ensures r.Ok? && 1 <= source <= 3 ==>
              r.value.value == (if fromTo in r.value.state.nds
                                then Select(r.value.state.nds[fromTo], source, getError).value else 0.0)
    ensures r.Ok? && 1 <= source <= 3 && fromTo !in r.value.state.nds ==>
              fromTo in r.value.state.wims && r.value.state.wims[fromTo] == 0.0
    // any other source: 0.0, memoized in the WIMSD table
    ensures r.Ok? && source != 0 && !(1 <= source <= 3) ==>
              r.value.value == 0.0 && fromTo in r.value.state.wims && r.value.state.wims[fromTo] == 0.0
    // a hit changes nothing
    ensures source == 0 && fromTo in st.wims ==> r == Ok(Reply(st.wims[fromTo], st))
    ensures 1 <= source <= 3 && fromTo in st.nds ==> r == Ok(Reply(Select(st.nds[fromTo], source, getError).value, st))
    decreases (if st.wims == map[] then 1 else 0) + (if st.nds == map[] then 1 else 0)
  {
    if source == 0 && fromTo in st.wims then Ok(Reply(st.wims[fromTo], st))
    else if source != 0 && fromTo in st.nds && Select(st.nds[fromTo], source, getError).Some? then
      Ok(Reply(Select(st.nds[fromTo], source, getError).value, st))
    else if source == 0 && st.wims == map[] then
      match wimsDs
      case Unreadable(e) => Err(e)
      case Rows(rows) => FpYield(st.(wims := LoadWimsFpy(st.wims, rows)), wimsDs, ndsDs, fromTo, 0, getError)
    else if st.nds == map[] then
      match ndsDs
      case Unreadable(e) => Err(e)
      case Rows(rows) => FpYield(st.(nds := LoadNdsFpy(st.nds, rows)), wimsDs, ndsDs, fromTo, source, getError)
    else Ok(Reply(0.0, st.(wims := st.wims[fromTo := 0.0])))
  }

  /** For source 0 the error flag changes nothing. */
  lemma WimsIgnoresErrorFlag(st: FissionState, wimsDs: Dataset<WimsRow>, ndsDs: Dataset<NdsRow>, fromTo: (int, int))
    requires st.wims != map[] || Refills(wimsDs)
    requires st.nds != map[] || Refills(ndsDs) || !ReachesNds(st, wimsDs, fromTo, 0)
    ensures FpYield(st, wimsDs, ndsDs, fromTo, 0, true) == FpYield(st, wimsDs, ndsDs, fromTo, 0, false)
  {
  }

  /** Asking for the same yield twice gives the same answer, and the second
      call leaves the cache as the first left it. */
  lemma FpYieldIdempotent(st: FissionState, wimsDs: Dataset<WimsRow>, ndsDs: Dataset<NdsRow>,
                          fromTo: (int, int), source: int, getError: bool)
    requires source != 0 || st.wims != map[] || Refills(wimsDs)
    requires st.nds != map[] || Refills(ndsDs) || !ReachesNds(st, wimsDs, fromTo, source)
    requires FpYield(st, wimsDs, ndsDs, fromTo, source, getError).Ok?
    ensures var first := FpYield(st, wimsDs, ndsDs, fromTo, source, getError).value;
            FpYield(first.state, wimsDs, ndsDs, fromTo, source, getError) == Ok(first)
  {
    var first := FpYield(st, wimsDs, ndsDs, fromTo, source, getError).value;
    var t := first.state;
    if source != 0 && !(fromTo in t.nds && 1 <= source <= 3) {
      assert t.nds == NdsAfter(st, wimsDs, ndsDs, fromTo, source);
      assert t.nds != map[] by {
        if fromTo !in t.nds && st.nds == map[] {
          assert ndsDs.Rows? && |ndsDs.rows| > 0;
        }
      }
      assert t.wims[fromTo := 0.0] == t.wims;
    }
  }

  /** On a cold cache, an NDS query for a pair the dataset lists answers the
      selected value of the last row for that pair, and loads only the NDS table. */
  lemma {:induction false} ColdNdsQueryReadsDataset(wimsDs: Dataset<WimsRow>, rows: seq<NdsRow>, source: int,
                                                    getError: bool, i: int)
    requires 1 <= source <= 3
    requires 0 <= i < |rows|
    requires forall j :: i < j < |rows| ==> NdsPair(rows[j]) != NdsPair(rows[i])
    ensures FpYield(Empty, wimsDs, Rows(rows), NdsPair(rows[i]), source, getError)
            == Ok(Reply(Select(rows[i].values, source, getError).value, FissionState(map[], LoadNdsFpy(map[], rows))))
  {
    LastWriterWins(map[], rows, NdsPair, NdsValue, i);
  }

  /** On a cold cache, a WIMSD query for a pair the WIMSD dataset lists
      answers its fraction and leaves the NDS table unloaded. */
  lemma {:induction false} ColdWimsQueryReadsDataset(rows: seq<WimsRow>, ndsDs: Dataset<NdsRow>, getError: bool, i: int)
    requires 0 <= i < |rows|
    requires forall j :: i < j < |rows| ==> WimsPair(rows[j]) != WimsPair(rows[i])
    ensures FpYield(Empty, Rows(rows), ndsDs, WimsPair(rows[i]), 0, getError)
            == Ok(Reply(rows[i].fraction, FissionState(LoadWimsFpy(map[], rows), map[])))
  {
    LastWriterWins(map[], rows, WimsPair, WimsValue, i);
  }

  /** An NDS miss on a cache whose WIMSD table is still empty writes a 0.0
      into that table; from then on the WIMSD table is never loaded, and every
      source-0 query for another pair answers 0.0 whatever the WIMSD dataset
      holds. */
  lemma NdsMissStopsWimsLoad(st: FissionState, wimsDs: Dataset<WimsRow>, ndsDs: Dataset<NdsRow>,
                                              fromTo: (int, int), other: (int, int))
    requires st.wims == map[] && st.nds != map[]
    requires fromTo !in st.nds && other != fromTo
    ensures var first := FpYield(st, wimsDs, ndsDs, fromTo, 1, false);
            && first == Ok(Reply(0.0, st.(wims := map[fromTo := 0.0])))
            && FpYield(first.value.state, wimsDs, ndsDs, other, 0, false)
               == Ok(Reply(0.0, st.(wims := map[fromTo := 0.0, other := 0.0])))
  {
  }
}

=== FILE: levels.dfy ===
/**
  The nuclear level table `level_data`, keyed by full nuclide id and filled
  from `/decay/level_list`. `MetastableId` resolves the m-th metastable state
  of a nuclide by an ordered scan of a block of ids; `StateEnergy` and
  `HalfLife` read one field of an entry. None of the three memoizes a
  default, and every load failure reaches the caller.
 */
module Levels {
  import opened Basics
  import opened CacheTable
  import opened NucId

  /** One row of `/decay/level_list`, stored whole in the table. */
  datatype LevelRecord = LevelRecord(nucId: int, level: real, halfLife: real, metastable: real)

  type LevelTable = map<int, LevelRecord>

  function RecordId(r: LevelRecord): int { r.nucId }
  function Whole(r: LevelRecord): LevelRecord { r }

  /** `_load_level_data`: each record is stored under its own id, later records winning. */
  function LoadLevelData(table: LevelTable, rows: seq<LevelRecord>): (r: LevelTable)
    ensures r.Keys == table.Keys + KeysOf(rows, RecordId)
    ensures |rows| > 0 ==> r != map[]
  {
    LastWriterNonEmpty(table, rows, RecordId, Whole);
    LastWriter(table, rows, RecordId, Whole)
  }

  /** Every entry is stored under its own record's id. */
  ghost predicate KeyedById(table: LevelTable) {
    forall k :: k in table ==> table[k].nucId == k
  }

  /** Loading keeps the table keyed by record id. */
  lemma {:induction false} LoadKeepsKeyedById(table: LevelTable, rows: seq<LevelRecord>)
    requires KeyedById(table)
    ensures KeyedById(LoadLevelData(table, rows))
    decreases |rows|
  {
    if rows != [] {
      LoadKeepsKeyedById(table, rows[..|rows| - 1]);
    }
  }

  /** The block scanned for metastable states of `nuc`: the 10,000 ids from
      `(nuc / 1000) * 1000` on. (The block starts at a multiple of 1,000, not
      of 10,000, so for an id whose state field is 1000 or more -- a non-zero
      thousands digit -- it reaches into the next mass number.) */
  function BlockStart(nuc: int): int {
    CDiv(nuc, 1000) * 1000
  }

  predicate InBlock(k: int, nuc: int) {
    BlockStart(nuc) <= k <= BlockStart(nuc) + 9999
  }

  /** The entry of the block, in ascending id order, whose metastable field
      (a real) equals `m`; its record's id, or 0 if there is none. */
  function ScanBlock(table: LevelTable, nuc: int, m: int): (id: int)
    ensures forall k :: k in table && InBlock(k, nuc) && table[k].metastable == m as real
              && (forall j :: j in table && InBlock(j, nuc) && table[j].metastable == m as real ==> k <= j)
              ==> id == table[k].nucId
    ensures (forall k :: k in table && InBlock(k, nuc) ==> table[k].metastable != m as real) ==> id == 0
  {
    match FirstKey(table.Keys, k => k in table && InBlock(k, nuc) && table[k].metastable == m as real)
    case Some(k) => table[k].nucId
    case None => 0
  }

  /** `metastable_id(int nuc, int m)`: 0 at once for m = 0; otherwise load
      if the table is empty, then scan the block. */
  function MetastableId(table: LevelTable, ds: Dataset<LevelRecord>, nuc: int, m: int)
    : (r: Result<Reply<int, LevelTable>>)
    ensures m == 0 ==> r == Ok(Reply(0, table))
    ensures r.Err? <==> m != 0 && table == map[] && ds.Unreadable?
    ensures r.Err? ==> r.error == ds.error
    ensures m != 0 && table != map[] ==> r == Ok(Reply(ScanBlock(table, nuc, m), table))
    ensures m != 0 && table == map[] && ds.Rows? ==>
              r == Ok(Reply(ScanBlock(LoadLevelData(table, ds.rows), nuc, m), LoadLevelData(table, ds.rows)))
  {
    if m == 0 then Ok(Reply(0, table))
    else if table == map[] then
      match ds
      case Unreadable(e) => Err(e)
      case Rows(rows) =>
        var loaded := LoadLevelData(table, rows);
        Ok(Reply(ScanBlock(loaded, nuc, m), loaded))
    else Ok(Reply(ScanBlock(table, nuc, m), table))
  }

  /** `metastable_id(int nuc)`: the first metastable state. */
  function FirstMetastableId(table: LevelTable, ds: Dataset<LevelRecord>, nuc: int)
    : (r: Result<Reply<int, LevelTable>>)
    ensures r.Err? <==> table == map[] && ds.Unreadable?
    ensures r.Ok? ==> r.value.state == (if table != map[] then table else LoadLevelData(table, ds.rows))
    ensures r.Ok? ==> r.value.value == ScanBlock(r.value.state, nuc, 1)
    ensures r == MetastableId(table, ds, nuc, 1)
  {
    MetastableId(table, ds, nuc, 1)
  }

  /** In a table keyed by record id, a non-zero metastable id is an entry of
      the scanned block with the requested metastable field, and no entry of
      the block with a smaller id has that field. */
  lemma MetastableIdIsLeastInBlock(table: LevelTable, ds: Dataset<LevelRecord>, nuc: int, m: int)
    requires KeyedById(table)
    requires MetastableId(table, ds, nuc, m).Ok?
    ensures var r := MetastableId(table, ds, nuc, m).value;
            r.value != 0 ==>
              && r.value in r.state && InBlock(r.value, nuc) && r.state[r.value].metastable == m as real
              && forall j :: j in r.state && InBlock(j, nuc) && r.state[j].metastable == m as real ==> r.value <= j
  {
    var r := MetastableId(table, ds, nuc, m).value;
    if m != 0 {
      var t := r.state;
      if table == map[] {
        LoadKeepsKeyedById(table, ds.rows);
      }
      match FirstKey(t.Keys, k => k in t && InBlock(k, nuc) && t[k].metastable == m as real)
      case Some(k) =>
        assert r.value == k;
      case None =>
    }
  }

  /** `state_energy(int)`: the level of a cached entry. On a miss in an empty
      table it loads and calls itself, but discards that call's answer and
      returns 0.0; a miss in a non-empty table also gives 0.0. Nothing is
      memoized. */
  function StateEnergy(table: LevelTable, ds: Dataset<LevelRecord>, nuc: int)
    : (r: Result<Reply<real, LevelTable>>)
    requires table != map[] || Refills(ds)
    ensures r.Err? <==> table == map[] && ds.Unreadable?
    ensures r.Err? ==> r.error == ds.error
    ensures r.Ok? ==> r.value.value == (if nuc in table then table[nuc].level else 0.0)
    ensures table != map[] ==> r.Ok? && r.value.state == table
    ensures table == map[] && ds.Rows? ==> r.Ok? && r.value.state == LoadLevelData(table, ds.rows)
    decreases if table == map[] then 1 else 0
  {
    if nuc in table then Ok(Reply(table[nuc].level, table))
    else if table == map[] then
      match ds
      case Unreadable(e) => Err(e)
      case Rows(rows) =>
        var loaded := LoadLevelData(table, rows);
        var discarded := StateEnergy(loaded, ds, nuc);
        Ok(Reply(0.0, loaded))
    else Ok(Reply(0.0, table))
  }

  /** `half_life(int)`: the half-life of a cached entry; on a miss in an empty
      table, load and retry; otherwise 0.0. Nothing is memoized. */
  function HalfLife(table: LevelTable, ds: Dataset<LevelRecord>, nuc: int)
    : (r: Result<Reply<real, LevelTable>>)
    requires table != map[] || Refills(ds)
    ensures r.Err? <==> table == map[] && ds.Unreadable?
    ensures r.Err? ==> r.error == ds.error
    ensures r.Ok? ==> r.value.value == (if nuc in r.value.state then r.value.state[nuc].halfLife else 0.0)
    ensures table != map[] ==> r.Ok? && r.value.state == table
    ensures table == map[] && ds.Rows? ==> r.Ok? && r.value.state == LoadLevelData(table, ds.rows)
    decreases if table == map[] then 1 else 0
  {
    if nuc in table then Ok(Reply(table[nuc].halfLife, table))
    else if table == map[] then
      match ds
      case Unreadable(e) => Err(e)
      case Rows(rows) => HalfLife(LoadLevelData(table, rows), ds, nuc)
    else Ok(Reply(0.0, table))
  }

  /** The two readers differ on a cold cache: for a nuclide the dataset lists,
      `HalfLife` answers from the freshly loaded entry, while `StateEnergy`
      answers 0.0 and only a second call returns the loaded level. */
  lemma {:induction false} ColdStateEnergyIsZeroUntilAskedAgain(rows: seq<LevelRecord>, i: int)
    requires 0 <= i < |rows|
    requires forall j :: i < j < |rows| ==> rows[j].nucId != rows[i].nucId
    ensures var first := StateEnergy(map[], Rows(rows), rows[i].nucId);
            && first.Ok? && first.value.value == 0.0
            && StateEnergy(first.value.state, Rows(rows), rows[i].nucId) == Ok(Reply(rows[i].level, first.value.state))
    ensures HalfLife(map[], Rows(rows), rows[i].nucId) == Ok(Reply(rows[i].halfLife, LoadLevelData(map[], rows)))
  {
    LastWriterWins(map[], rows, RecordId, Whole, i);
  }

  /** The metastable-ordinal search for U-235: a table holding the ground
      state and the first isomer (922350001, metastable field 1.0) resolves
      m = 1 to the isomer, m = 2 to 0, and m = 0 to 0 without loading. */
  lemma Uranium235Isomer()
    ensures var table := map[922350000 := LevelRecord(922350000, 0.0, 2.2e16, 0.0),
                             922350001 := LevelRecord(922350001, 0.0000765, 1560.0, 1.0)];
            && FirstMetastableId(table, Unreadable(FileNotFound), 922350000) == Ok(Reply(922350001, table))
            && MetastableId(table, Unreadable(FileNotFound), 922350000, 2) == Ok(Reply(0, table))
            && MetastableId(map[], Unreadable(FileNotFound), 922350000, 0) == Ok(Reply(0, map[]))
  {
  }
}

=== FILE: nuc_id.dfy ===
/**
  Arithmetic on canonical nuclide ids of the form ZZZAAASSSS: atomic number,
  mass number, then a four-digit state field. The cache treats every id it is
  given as already canonical, so the id service's normalisation is the
  identity here. Integer division and remainder follow C++, which truncates
  toward zero; Dafny's own `/` and `%` are Euclidean, so they are wrapped.
 */
module NucId {

  /** C++ `a / b` for a positive divisor: the quotient truncated toward zero. */
  function CDiv(a: int, b: int): (q: int)
    requires b > 0
    ensures a >= 0 ==> 0 <= q * b <= a < q * b + b
    ensures a < 0 ==> q * b - b < a <= q * b <= 0
  {
    if a >= 0 then
      DivBounds(a, b);
      a / b
    else
      DivBounds(-a, b);
      -((-a) / b)
  }

  /** Euclidean division of a non-negative number brackets it between two
      consecutive multiples of the divisor. */
  lemma DivBounds(a: int, b: int)
    requires a >= 0 && b > 0
    ensures 0 <= (a / b) * b <= a < (a / b) * b + b
  {
  }

  /** C++ `a % b` for a positive divisor: the remainder takes the sign of `a`. */
  function CMod(a: int, b: int): (r: int)
    requires b > 0
    ensures r == a - CDiv(a, b) * b
    ensures a >= 0 ==> 0 <= r < b
    ensures a < 0 ==> -b < r <= 0
  {
    a - CDiv(a, b) * b
  }

  /** The id has a non-zero state field (`0 < nucid % 10000`). */
  predicate IsExcited(nuc: int) {
    0 < CMod(nuc, 10000)
  }

  /** The id with its state field cleared (`(nucid / 10000) * 10000`). */
  function GroundState(nuc: int): (g: int)
    ensures CMod(g, 10000) == 0
    ensures !IsExcited(g)
    ensures nuc >= 0 ==> 0 <= g <= nuc && nuc - g == CMod(nuc, 10000)
  {
    var q := CDiv(nuc, 10000);
    assert CDiv(q * 10000, 10000) == q;
    q * 10000
  }

  /** The mass-number digits of the id (`(nucid / 10000) % 1000`). */
  function MassNumber(nuc: int): (a: int)
    ensures nuc >= 0 ==> 0 <= a < 1000
  {
    CMod(CDiv(nuc, 10000), 1000)
  }

  lemma ExcitedAndGroundShareMassNumber(nuc: int)
    requires nuc >= 0
    ensures MassNumber(GroundState(nuc)) == MassNumber(nuc)
  {
  }

  /** The nuclide-name service's atomic-number and mass-number extractors,
      which the cache calls but does not define. */
  datatype NameService = NameService(znum: int -> int, anum: int -> int)
}

=== FILE: scattering.dfy ===
/**
  Bound coherent and incoherent neutron scattering lengths: two id-keyed
  tables of complex values filled in one pass from the
  `/neutron/scattering_lengths` table. A miss in a non-empty table is
  answered by the nearest match -- the first entry in ascending id order with
  the same mass number, else the first with the same atomic number, else
  zero -- and memoized. Unlike atomic mass, a load failure reaches the caller.
 */
module Scattering {
  import opened Basics
  import opened CacheTable
  import opened NucId

  datatype Complex = Complex(re: real, im: real)

  const Zero := Complex(0.0, 0.0)

  /** One row of the `/neutron/scattering_lengths` table. */
  datatype ScatteringRow = ScatteringRow(
    nuc: int, bCoherent: Complex, bIncoherent: Complex,
    xsCoherent: real, xsIncoherent: real, xs: real)

  /** `b_coherent_map` and `b_incoherent_map`. */
  datatype ScatteringState = ScatteringState(coherent: map<int, Complex>, incoherent: map<int, Complex>)

  const Empty := ScatteringState(map[], map[])

  /** Which of the two tables a query reads. */
  datatype Kind = Coherent | Incoherent

  function Table(st: ScatteringState, kind: Kind): map<int, Complex> {
    match kind
    case Coherent => st.coherent
    case Incoherent => st.incoherent
  }

  function WithTable(st: ScatteringState, kind: Kind, t: map<int, Complex>): ScatteringState {
    match kind
    case Coherent => st.(coherent := t)
    case Incoherent => st.(incoherent := t)
  }

  function RowNuc(r: ScatteringRow): int { r.nuc }
  function RowCoherent(r: ScatteringRow): Complex { r.bCoherent }
  function RowIncoherent(r: ScatteringRow): Complex { r.bIncoherent }

  function RowLength(kind: Kind, r: ScatteringRow): Complex {
    match kind
    case Coherent => r.bCoherent
    case Incoherent => r.bIncoherent
  }

  /** `_load_scattering_lengths`: each row writes both of its lengths, later rows winning. */
  function LoadScatteringLengths(st: ScatteringState, rows: seq<ScatteringRow>): (r: ScatteringState)
    ensures r.coherent.Keys == st.coherent.Keys + KeysOf(rows, RowNuc)
    ensures r.incoherent.Keys == st.incoherent.Keys + KeysOf(rows, RowNuc)
    ensures |rows| > 0 ==> r.coherent != map[] && r.incoherent != map[]
  {
    LastWriterNonEmpty(st.coherent, rows, RowNuc, RowCoherent);
    LastWriterNonEmpty(st.incoherent, rows, RowNuc, RowIncoherent);
    ScatteringState(LastWriter(st.coherent, rows, RowNuc, RowCoherent),
                    LastWriter(st.incoherent, rows, RowNuc, RowIncoherent))
  }

  /** After the load, the last row naming a nuclide supplies both of its lengths. */
  lemma LoadedRowWins(st: ScatteringState, rows: seq<ScatteringRow>, kind: Kind, i: int)
    requires 0 <= i < |rows|
    requires forall j :: i < j < |rows| ==> rows[j].nuc != rows[i].nuc
    ensures rows[i].nuc in Table(LoadScatteringLengths(st, rows), kind)
    ensures Table(LoadScatteringLengths(st, rows), kind)[rows[i].nuc] == RowLength(kind, rows[i])
  {
    LastWriterWins(st.coherent, rows, RowNuc, RowCoherent, i);
    LastWriterWins(st.incoherent, rows, RowNuc, RowIncoherent, i);
  }

  /** The nearest-match estimate for an id absent from a non-empty table: the
      entry with the least id among those sharing the mass number; if there is
      none, the entry with the least id among those sharing the atomic number;
      if there is none either, zero. */
  function Estimate(table: map<int, Complex>, names: NameService, nuc: int): (b: Complex)
    ensures forall k :: k in table && names.anum(k) == names.anum(nuc)
                     && (forall j :: j in table && names.anum(j) == names.anum(nuc) ==> k <= j)
                     ==> b == table[k]
    ensures (forall k :: k in table ==> names.anum(k) != names.anum(nuc)) ==>
              forall k :: k in table && names.znum(k) == names.znum(nuc)
                       && (forall j :: j in table && names.znum(j) == names.znum(nuc) ==> k <= j)
                       ==> b == table[k]
    ensures (forall k :: k in table ==> names.anum(k) != names.anum(nuc) && names.znum(k) != names.znum(nuc))
            ==> b == Zero
  {
    match FirstKey(table.Keys, k => names.anum(k) == names.anum(nuc))
    case Some(k) => table[k]
    case None =>
      match FirstKey(table.Keys, k => names.znum(k) == names.znum(nuc))
      case Some(k) => table[k]
      case None => Zero
  }

  /** What `b_coherent` and `b_incoherent` promise about a reply `r` to a query
      for `nuc` on the table `kind`. */
  ghost predicate Answers(st: ScatteringState, ds: Dataset<ScatteringRow>, names: NameService,
                          kind: Kind, nuc: int, r: Result<Reply<Complex, ScatteringState>>)
  {
    var t := Table(st, kind);
    // a failed load reaches the caller, and only an empty table loads
    && (r.Err? <==> t == map[] && ds.Unreadable?)
    && (r.Err? ==> r.error == ds.error)
    // every answer is memoized under the queried id
    && (r.Ok? ==> nuc in Table(r.value.state, kind) && Table(r.value.state, kind)[nuc] == r.value.value)
    // a hit leaves the cache unchanged
    && (nuc in t ==> r == Ok(Reply(t[nuc], st)))
    // a miss in a non-empty table stores the estimate and touches nothing else
    && (nuc !in t && t != map[] ==>
          r == Ok(Reply(Estimate(t, names, nuc), WithTable(st, kind, t[nuc := Estimate(t, names, nuc)]))))
  }

  /** The shared body of `b_coherent(int)` and `b_incoherent(int)`. */
  function Lookup(st: ScatteringState, ds: Dataset<ScatteringRow>, names: NameService, kind: Kind, nuc: int)
    : (r: Result<Reply<Complex, ScatteringState>>)
    requires Table(st, kind) != map[] || Refills(ds)
    ensures Answers(st, ds, names, kind, nuc, r)
    decreases if Table(st, kind) == map[] then 1 else 0
  {
    var t := Table(st, kind);
    if nuc in t then Ok(Reply(t[nuc], st))
    else if t == map[] then
      match ds
      case Unreadable(e) => Err(e)
      case Rows(rows) => Lookup(LoadScatteringLengths(st, rows), ds, names, kind, nuc)
    else
      var b := Estimate(t, names, nuc);
      Ok(Reply(b, WithTable(st, kind, t[nuc := b])))
  }

  /** `b_coherent(int)`. */
  function BCoherent(st: ScatteringState, ds: Dataset<ScatteringRow>, names: NameService, nuc: int)
    : (r: Result<Reply<Complex, ScatteringState>>)
    requires st.coherent != map[] || Refills(ds)
    ensures Answers(st, ds, names, Coherent, nuc, r)
  {
    Lookup(st, ds, names, Coherent, nuc)
  }

  /** `b_incoherent(int)`. */
  function BIncoherent(st: ScatteringState, ds: Dataset<ScatteringRow>, names: NameService, nuc: int)
    : (r: Result<Reply<Complex, ScatteringState>>)
    requires st.incoherent != map[] || Refills(ds)
    ensures Answers(st, ds, names, Incoherent, nuc, r)
  {
    Lookup(st, ds, names, Incoherent, nuc)
  }

  /** On a cold cache the first query loads, and an id the dataset lists gets
      the length from the last row that names it. */
  lemma {:induction false} ColdQueryReadsDataset(rows: seq<ScatteringRow>, names: NameService, kind: Kind, i: int)
    requires 0 <= i < |rows|
    requires forall j :: i < j < |rows| ==> rows[j].nuc != rows[i].nuc
    ensures Lookup(Empty, Rows(rows), names, kind, rows[i].nuc).Ok?
    ensures Lookup(Empty, Rows(rows), names, kind, rows[i].nuc).value.value == RowLength(kind, rows[i])
  {
    var loaded := LoadScatteringLengths(Empty, rows);
    LoadedRowWins(Empty, rows, kind, i);
    assert Lookup(Empty, Rows(rows), names, kind, rows[i].nuc) == Lookup(loaded, Rows(rows), names, kind, rows[i].nuc);
  }

  /** On a cold cache the first query loads, and an id the dataset does not
      list gets the nearest-match estimate over the freshly loaded table,
      memoized there. */
  lemma ColdQueryOfUnlistedEstimates(rows: seq<ScatteringRow>, names: NameService, kind: Kind, nuc: int)
    requires |rows| > 0
    requires forall j :: 0 <= j < |rows| ==> rows[j].nuc != nuc
    ensures var loaded := LoadScatteringLengths(Empty, rows);
            var b := Estimate(Table(loaded, kind), names, nuc);
            Lookup(Empty, Rows(rows), names, kind, nuc) == Ok(Reply(b, WithTable(loaded, kind, Table(loaded, kind)[nuc := b])))
  {
  }

  /** The atomic number of a pyne id ZZZAAASSSS, used only to build the example below. */
  function PyneZnum(nuc: int): int { CDiv(nuc, 10000000) }

  /** A mass-number match wins over an atomic-number match even when the
      atomic-number match has the smaller id. The target Li-4 (30040000) is
      absent; the table holds Li-3 (30030000: same Z, smaller id) and Be-4
      (40040000: same A). The Be-4 length is chosen and memoized. */
  lemma {:induction false} MassNumberMatchBeatsAtomicNumberMatch()
    ensures var names := NameService(PyneZnum, MassNumber);
            var table := map[30030000 := Complex(1.0, 0.0), 40040000 := Complex(2.0, 0.0)];
            var r := BCoherent(ScatteringState(table, map[]), Unreadable(FileNotFound), names, 30040000);
            && r == Ok(Reply(Complex(2.0, 0.0), ScatteringState(table[30040000 := Complex(2.0, 0.0)], map[])))
  {
    var names := NameService(PyneZnum, MassNumber);
    var table := map[30030000 := Complex(1.0, 0.0), 40040000 := Complex(2.0, 0.0)];
    assert names.anum(40040000) == names.anum(30040000);
    assert names.anum(30030000) != names.anum(30040000);
    assert forall j :: j in table && names.anum(j) == names.anum(30040000) ==> 40040000 <= j;
    assert Estimate(table, names, 30040000) == Complex(2.0, 0.0);
  }
}
